=== FILE: README.md ===
# CarePath decision core in Dafny

CarePath is a walking-route tracker for seniors with a caregiver's companion
view. It uses a Firebase realtime database. This project models the parts
of it that make decisions:

- **Route geometry.** Whether the walker is inside any route's buffer polygon,
  the nearest point on the registered routes, and the left/right/straight
  classifier.
- **Off-route lifecycle on the walker's map.** Deviation detection, 5-second
  confirmation, alarm, guidance back to the route (steps and turn), direction
  cues, and the `off-route`/`on-route` status sent for the caregiver.
- **Buffer-polygon trigger on the server.** Point cleaning, the 2-point guard,
  the default radius, exterior-ring selection and the status it writes.
- **Location history.** The time-gap polyline splitter, and the rule that
  appends live records to a time-ordered history.
- **Decoders and validators.**
  - the registered-route snapshot;
  - the senior lookup and latest-location check;
  - the caregiver's alert decoder and banner;
  - the heading normalisation of the orientation sensor;
  - six-digit group-id generation;
  - senior and caregiver signup;
  - login with role dispatch;
  - route-name defaulting.

Database snapshots are `Json.Value`s:
- A snapshot that does not exist is `Null`.
- A property that is absent is `None`.
- Object fields are listed in JavaScript iteration order.

Clocks, random draws and the device heading are parameters. The geometry
library's calls (`booleanPointInPolygon`, `nearestPointOnLine`, `distance`,
`bearing`, `simplify` + `buffer`) are function-typed parameters about which
nothing is assumed. React effects are settled per event: one event (a location
sample, the confirmation timer, a tap, a tick) maps one settled state to the
next.

Modules, by file:
- `base.dfy`, `text.dfy`, `json.dfy`, `angles.dfy`, `sorting.dfy`: shared
  vocabulary. This covers coordinates and GeoJSON positions, JavaScript
  `trim`/`startsWith`/decimal rendering, database values and truthiness,
  JavaScript's truncating `%`, and a stable insertion sort and filter.
- `route_utils.dfy`: `routeUtils.ts`.
- `off_route.dfy`: the off-route part of `MapScreen.tsx`.
- `point_records.dfy`, `buffer_builder.dfy`, `route_data.dfy`,
  `buffer_round_trip.dfy`: the server trigger, the client's route decoder, and
  how the two fit together.
- `polyline.dfy`, `location_history.dfy`: the history pipeline.
- `gyroscope.dfy`, `groups.dfy`, `senior_location.dfy`, `route_alerts.dfy`,
  `accounts.dfy`, `signup.dfy`, `login.dfy`, `route_name.dfy`: the remaining
  hooks and screens.

## Model

| member | source | states |
|---|---|---|
| RouteUtils.IsPointInsideAnyBuffer | careclient/src/utils/routeUtils.ts:19-56 | False for a missing point or an empty list; otherwise true exactly when some polygon with more than 3 vertices contains the point (the union the loop searches) |
| RouteUtils.ScanBuffers | careclient/src/utils/routeUtils.ts:34-55 | The early-return loop decides membership in the union of the usable polygons |
| RouteUtils.InsideAnyMonotone | careclient/src/utils/routeUtils.ts:34-55 | Adding polygons before or after the list never turns a hit into a miss |
| RouteUtils.SmallPolygonIgnored | careclient/src/utils/routeUtils.ts:35 | Inserting a polygon with 3 or fewer vertices anywhere leaves the answer unchanged |
| RouteUtils.NearestFrom | careclient/src/utils/routeUtils.ts:71-112 | The loop keeps the route whose projection is strictly nearest so far; the route it ends with is no farther than any other candidate and strictly nearer than every earlier one |
| RouteUtils.FindNearestPointOnRoutes | careclient/src/utils/routeUtils.ts:59-119 | No point exactly when the point or list is missing or no route with at least 2 points projects; otherwise the projection onto the winning route |
| RouteUtils.WinnerUnique | careclient/src/utils/routeUtils.ts:93-101 | With strict replacement, ties go to the earlier route, so the winner is unique |
| RouteUtils.NormalizeBearing | careclient/src/utils/routeUtils.ts:138 | For bearings from -360 the result lies in [0, 360) and names the same direction |
| RouteUtils.HeadingDifference | careclient/src/utils/routeUtils.ts:141-146 | For a heading in [0, 360) and a bearing in [-180, 180] the difference lies in (-180, 180] and is the bearing minus the heading up to full turns |
| RouteUtils.ClassifyDifference | careclient/src/utils/routeUtils.ts:149-155 | Straight exactly within the tolerance, right exactly above it, left exactly below its negation |
| RouteUtils.CalculateTurnDirection | careclient/src/utils/routeUtils.ts:128-156 | For a heading in [0, 360) and a bearing in [-180, 180], the turn is straight exactly when the angle in (-180, 180] from heading to bearing is within the tolerance, right exactly when it exceeds it, left exactly when it is below its negative |
| RouteUtils.UniqueFold | careclient/src/utils/routeUtils.ts:141-146 | The folded difference is the only angle in (-180, 180] naming that direction |
| RouteUtils.TurnExamples | careclient/src/utils/routeUtils.ts:131-155 | Heading 350 and bearing 10 turn right, 10 and 5 go straight, 0 and 170 turn right, with the default tolerance 15 |
| OffRoute.Observe | careclient/src/screens/MapScreen.tsx:567-598 | No geometry exactly when there is no location, a route is being registered, no route is loaded or no buffer has more than 3 vertices; otherwise inside or outside the union of usable buffers |
| OffRoute.UsableBuffers | careclient/src/screens/MapScreen.tsx:593-597 | Only present buffers with more than 3 vertices take part, and none remain exactly when no route has one |
| OffRoute.OutsideStartsExcursion | careclient/src/screens/MapScreen.tsx:599-602 | An outside sample while on route starts an excursion at that time with the path exactly the current point; the timer is armed 5000 ms later unless the start is 0 |
| OffRoute.OutsideExtendsPath | careclient/src/screens/MapScreen.tsx:614-616 | Further outside samples append the point and keep the start time, the timer and the confirmation |
| OffRoute.NotOutsideEndsExcursion | careclient/src/screens/MapScreen.tsx:569-592 | An inside sample, or one without usable geometry, clears the flag, start time, path, timer, confirmation, nearest point, guide line, steps and turn; it stops the alarm and reports `on-route` only if the excursion was confirmed |
| OffRoute.Leave | careclient/src/screens/MapScreen.tsx:603-613 | Leaving clears every piece of excursion state and reports `on-route` exactly when a confirmed excursion ends |
| OffRoute.ReturnBeforeConfirmation | careclient/src/screens/MapScreen.tsx:659-667 | Returning before confirmation cancels the timer and reports nothing |
| OffRoute.ConfirmedOnlyByTimer | careclient/src/screens/MapScreen.tsx:641-658 | No event except the confirmation timer confirms, and it does so only while off route and at or after its deadline |
| OffRoute.OnSample | careclient/src/screens/MapScreen.tsx:567-617 | After a sample the walker is off route exactly when the sample lies outside every usable buffer; a sample never confirms, and its only possible output is one `on-route` when a confirmed excursion ends |
| OffRoute.OnTimer | careclient/src/screens/MapScreen.tsx:641-658 | A timer that is not due changes nothing; a due timer after the walker returned only disarms; otherwise it confirms, shows the alert and guidance, plays the alarm's first round exactly when the alarm was silent and sounds are loaded, and reports `off-route` last exactly when the ids are known |
| OffRoute.Step | careclient/src/screens/MapScreen.tsx:567-932 | Only samples and the timer move the excursion, its path and its timer, and only they report statuses; dismissing hides the alert and silences the alarm |
| OffRoute.TimerConfirms | careclient/src/screens/MapScreen.tsx:641-658 | When the timer is due on a pending excursion, it is confirmed, the alert shows, the alarm starts unless sounds are loading and then plays its first round at once, and `off-route` is reported after that round |
| OffRoute.StartAlarm | careclient/src/screens/MapScreen.tsx:141-156 | Starting the alarm does nothing while it plays or sounds are loading |
| OffRoute.DirectionTick | careclient/src/screens/MapScreen.tsx:175-199 | A direction cue plays exactly when confirmed, sounds loaded, the alarm silent and the turn left or right; the alarm pre-empts it |
| OffRoute.AlarmTick | careclient/src/screens/MapScreen.tsx:146-154 | The alarm repeats exactly while it plays |
| OffRoute.Steps | careclient/src/screens/MapScreen.tsx:785-788 | The step count is the distance over the 0.6 m step, rounded half up, and 0 for distances under half a step |
| OffRoute.Aim | careclient/src/screens/MapScreen.tsx:769-801 | (finding, corrected) Steps and turn are present exactly with a location and a nearest point, computed from the distance and the bearing to it; nothing else changes |
| OffRoute.Guide | careclient/src/screens/MapScreen.tsx:732-807 | (finding, corrected) While confirmed, the nearest point is the nearest-point search over routes with at least 2 points; the guide line joins walker and target; steps and turn exist exactly with a target |
| OffRoute.Dismiss | careclient/src/screens/MapScreen.tsx:927-932 | Dismissing hides the alert and stops the alarm; the off-route and confirmed flags and the path are untouched |
| OffRoute.OnHeading | careclient/src/screens/MapScreen.tsx:769-807 | (finding, corrected) A heading change re-aims only while confirmed, with the corrected aim |
| OffRoute.StepValid | careclient/src/screens/MapScreen.tsx:567-807 | (finding, corrected) Every event keeps the invariant: confirmation only while off route, timer armed exactly while pending with a nonzero start, alert/alarm/guidance only while confirmed, steps only towards a target |
| OffRoute.StepNotices | careclient/src/screens/MapScreen.tsx:651-684 | An event reports `off-route` exactly when it confirms and `on-route` exactly when it ends a confirmed excursion |
| OffRoute.StatusesTrackConfirmation | careclient/src/screens/MapScreen.tsx:639-702 | Over any event sequence the statuses alternate, and the last one says off route exactly when the excursion is confirmed at the end |
| OffRoute.CaregiverBannerMatches | careclient/src/screens/CaregiverMapScreen.tsx:420 | From the opening screen, the caregiver's banner decoded from the last status sent is shown exactly when the walker's excursion is confirmed |
| BufferBuilder.NeedsBuffer | functions/src/index.ts:29-32 | A deleted value stops the trigger and a changed one always proceeds; an unchanged number, string, boolean or null stops it, but an unchanged object or array still proceeds, because `===` compares separately read objects by identity |
| BufferBuilder.LineCoordinates | functions/src/index.ts:56-64 | The line is the records with numeric latitude and longitude, stably ordered by timestamp (missing as 0), as `[longitude, latitude]` positions |
| BufferBuilder.BufferDistance | functions/src/index.ts:78 | The radius is `buffer_meters` when truthy, otherwise 9, and never falsy |
| BufferBuilder.ExteriorRing | functions/src/index.ts:110-134 | A Polygon gives its first ring, a MultiPolygon the first ring of its first part, anything else none |
| BufferBuilder.EncodePosition | functions/src/index.ts:139-142 | A position is written as `{longitude: c[0], latitude: c[1]}`, which decodes back to the same coordinate |
| BufferBuilder.WritesFor | functions/src/index.ts:101-163 | `error_exception` exactly on a throw, `error_calculation` exactly without geometry, the ring then `complete_<now>` exactly for a non-empty ring, otherwise `error_coordinates` |
| BufferBuilder.CalculateRouteBuffer | functions/src/index.ts:23-165 | Nothing is written exactly when no buffer is needed, the points node is missing or fewer than 2 points are valid; otherwise the writes for the buffer of the cleaned line |
| BufferBuilder.ErrorStatusesDistinct | functions/src/index.ts:106-158 | The three error statuses differ, and no completion status is an error status |
| PointRecords.TimestampKey | functions/src/index.ts:62 | A numeric timestamp is the sort key; a falsy or missing one counts as 0 |
| PointRecords.Chronological | careclient/src/hooks/useRegisteredRouteData.ts:82-93 | The decodable records, sorted by timestamp, are a permutation of the decodable records |
| PointRecords.KeepSortCommute | careclient/src/hooks/useRegisteredRouteData.ts:83-93 | Sorting then filtering (client) gives the same list as filtering then sorting (server) |
| Sorting.FilterSortCommute | functions/src/index.ts:56-62 | A stable sort commutes with a filter |
| Sorting.SortBy | functions/src/index.ts:62 | The sorted list is ordered by the key and as long as the input |
| Sorting.SortPermutes | functions/src/index.ts:62 | The sorted list holds exactly the input elements, each as often as in the input |
| Sorting.SortSorted | functions/src/index.ts:62 | A list already in key order comes back unchanged |
| Sorting.SortStable | functions/src/index.ts:62 | The sort is stable: the elements sharing any one key appear in the output in their input order |
| RouteData.ParsePoints | careclient/src/hooks/useRegisteredRouteData.ts:76-97 | A falsy points node gives no points; otherwise the decodable records in time order as `{latitude, longitude}` |
| RouteData.DecodeBuffer | careclient/src/hooks/useRegisteredRouteData.ts:99-120 | A buffer is kept exactly when it is an array whose every element is an object with numeric latitude and longitude, vertex for vertex |
| RouteData.ParseRoute | careclient/src/hooks/useRegisteredRouteData.ts:72-126 | Metadata when truthy, the parsed points and the validated buffer |
| RouteData.Subscribe | careclient/src/hooks/useRegisteredRouteData.ts:44-56 | A missing route id settles with an error and no data; otherwise loading with no data and no error |
| RouteData.OnRouteValue | careclient/src/hooks/useRegisteredRouteData.ts:71-136 | A snapshot always ends loading; a missing one gives an error and no data, a present one the parsed data |
| RouteData.OnRouteError | careclient/src/hooks/useRegisteredRouteData.ts:143-149 | A listener error ends loading, drops the data and reports the listen failure |
| BufferRoundTrip.RingRoundTrip | functions/src/index.ts:139-144 | A ring written by the trigger passes the client's buffer check and reads back vertex for vertex |
| BufferRoundTrip.StoredBufferReadBack | careclient/src/hooks/useRegisteredRouteData.ts:99-120 | After a successful trigger, the route the client reads has the exterior ring of the computed buffer as its buffer polygon |
| Polyline.SplitPolylineByTimeGap | careclient/src/utils/polylineUtils.ts:21-91 | No records give no segments, one record one single-point segment, otherwise the runs of records joined by gaps within `maxGapMinutes * 60000` |
| Polyline.SplitRuns | careclient/src/utils/polylineUtils.ts:32-90 | The loop with its current segment computes exactly the runs of 2 or more joined records |
| Polyline.SplitStep | careclient/src/utils/polylineUtils.ts:62-81 | One iteration keeps the loop's account: a joined record extends the current polyline, a gap closes it and keeps it only with more than one point |
| Polyline.SplitFinish | careclient/src/utils/polylineUtils.ts:84-87 | The polyline still open at the end is kept only with more than one point, completing the runs |
| Polyline.Runs | careclient/src/utils/polylineUtils.ts:74-87 | Every segment has at least 2 points |
| Polyline.RunEnd | careclient/src/utils/polylineUtils.ts:62-81 | A run extends while gaps are within the limit and stops at the first gap above it |
| Polyline.AdjacentJoined | careclient/src/utils/polylineUtils.ts:62-70 | Adjacent points of a segment come from adjacent records at most the limit apart |
| Polyline.Coverage | careclient/src/utils/polylineUtils.ts:71-87 | A record is drawn exactly when it is joined to its predecessor or its successor is joined to it |
| Polyline.LonePointDropped | careclient/src/utils/polylineUtils.ts:71-81 | A record with an over-limit gap on both sides is not drawn |
| Polyline.NoGapOneSegment | careclient/src/utils/polylineUtils.ts:42-87 | With at least 2 records and no over-limit gap, the result is one segment of all points |
| Polyline.RunsSubsequence | careclient/src/utils/polylineUtils.ts:36-87 | The segments, concatenated, are a subsequence of the input coordinates in input order |
| LocationHistory.Subscribe | careclient/src/hooks/useLocationHistory.ts:52-66 | A missing senior id yields no records and an error; otherwise an empty history with no reference record |
| LocationHistory.InitialLoad | careclient/src/hooks/useLocationHistory.ts:82-91 | The initial records are a timestamp-sorted permutation of the snapshot, and the last becomes the reference |
| LocationHistory.Accept | careclient/src/hooks/useLocationHistory.ts:107-134 | A live record is taken only when the flag is off, latitude and longitude are numbers and it is newer than the reference; it then becomes the reference and is appended unless an identical record is held |
| LocationHistory.AcceptPreservesWellFormed | careclient/src/hooks/useLocationHistory.ts:117-134 | Accepting keeps the history time-ordered with its newest record as the reference, as the splitter requires |
| LocationHistory.NoDuplicateOfNewer | careclient/src/hooks/useLocationHistory.ts:117-131 | In a time-ordered history a record newer than the reference is never a duplicate |
| LocationHistory.OnListenerError | careclient/src/hooks/useLocationHistory.ts:143-147 | A live-listener error is reported and the records and reference stay |
| LocationHistory.OnLoadError | careclient/src/hooks/useLocationHistory.ts:149-153 | A failed initial load is reported and the records and reference stay |
| LocationHistory.Polylines | careclient/src/hooks/useLocationHistory.ts:164-169 | The history is drawn as the runs of records joined by gaps of at most 2 minutes (120000 ms); a single record is one single-point polyline |
| LocationHistory.OnChildAdded | careclient/src/hooks/useLocationHistory.ts:111-137 | While the current off-route flag is set nothing is appended and the reference stays |
| Gyroscope.NormalizeHeading | careclient/src/hooks/useGyroscope.ts:32 | The heading lies in [0, 360), differs from the degrees by whole turns, and is unchanged for degrees already in range |
| Gyroscope.OnSample | careclient/src/hooks/useGyroscope.ts:28-42 | A non-numeric or NaN yaw changes nothing; a reading replaces the heading exactly when it is more than 0.1 from the compared value |
| Gyroscope.InvalidReadingIgnored | careclient/src/hooks/useGyroscope.ts:30-42 | An invalid reading leaves the heading where it was |
| Groups.FirstKeyWithPrefix | careclient/src/hooks/useSeniorLocation.ts:67-73 | No key exactly when no key has the prefix; otherwise the key at the first position that has it |
| Groups.FirstKeyStable | careclient/src/hooks/useSeniorLocation.ts:68-73 | Members listed after the first match never change the answer |
| SeniorLocation.OnGroup | careclient/src/hooks/useSeniorLocation.ts:60-141 | A missing group or one without a `senior_` member ends loading with an error; otherwise the first senior is recorded |
| SeniorLocation.DecodeLocation | careclient/src/hooks/useSeniorLocation.ts:96-107 | A location is accepted exactly when latitude, longitude, heading and timestamp are all numbers, and carries those numbers |
| SeniorLocation.LocationRoundTrip | careclient/src/hooks/useSeniorLocation.ts:91-107 | A stored location read as the newest entry decodes to itself |
| SeniorLocation.OnLocation | careclient/src/hooks/useSeniorLocation.ts:89-125 | Every value ends loading; a location is shown exactly when there is no error; an empty history or an invalid entry clears it with an error |
| SeniorLocation.OnListenerError | careclient/src/hooks/useSeniorLocation.ts:129-135 | A listener error clears the shown location, reports the failure and ends loading; nothing else changes |
| SeniorLocation.OnLookupError | careclient/src/hooks/useSeniorLocation.ts:142-147 | A failed group read ends loading with an error, keeping the location and the senior found so far |
| SeniorLocation.Step | careclient/src/hooks/useSeniorLocation.ts:52-147 | Group-read answers are ignored once the listener is attached; location callbacks are ignored before it is attached and end loading once it is |
| SeniorLocation.Start | careclient/src/hooks/useSeniorLocation.ts:38-49 | A missing group id settles with an error, no id and no location |
| SeniorLocation.RunConsistent | careclient/src/hooks/useSeniorLocation.ts:37-150 | Whatever callbacks arrive, a shown location has no error, a found senior and loading over |
| RouteAlerts.DecodeAlert | careclient/src/screens/CaregiverMapScreen.tsx:180-203 | A string status is kept with the truthy timestamp; an explicit null status keeps only the timestamp; any other shape or a missing snapshot clears both |
| RouteAlerts.AlertRoundTrip | careclient/src/screens/CaregiverMapScreen.tsx:184-186 | The caregiver decodes exactly the status and timestamp the walker's client wrote, and the banner shows exactly for `off-route` |
| RouteAlerts.Step | careclient/src/screens/CaregiverMapScreen.tsx:155-221 | Re-attaching clears status and timestamp and listens only with both ids; a listener error clears them |
| RouteAlerts.UnknownIdsShowNothing | careclient/src/screens/CaregiverMapScreen.tsx:171-222 | Without both ids nothing is ever shown |
| Signup.CandidateNumber | careclient/src/screens/RegisterSeniorScreen.tsx:36 | `floor(100000 + r * 900000)` for r in [0, 1) lies in [100000, 999999] |
| Signup.CandidateId | careclient/src/screens/RegisterSeniorScreen.tsx:36 | Every candidate id is exactly six decimal digits |
| Signup.GenerateUniqueGroupId | careclient/src/screens/RegisterSeniorScreen.tsx:31-50 | Fails exactly when all 10 candidates are taken; otherwise returns the first free candidate, which is six digits and unused |
| Signup.SeniorSignup | careclient/src/screens/RegisterSeniorScreen.tsx:52-108 | Empty fields stop before any lookup; failure exactly when no id is free; otherwise the group is the first free candidate, six digits and unused, and `senior_<now>` with role `senior` is written into it and opens the map |
| Signup.CaregiverSignup | careclient/src/screens/RegisterCaregiverScreen.tsx:32-120 | Rejects empty fields, group ids that are not six digits, and missing groups with nothing written; every request with all fields, a six-digit id and an existing group registers, writing `caregiver_<now>` and linking the first senior exactly when there is one and linking succeeds |
| Signup.CaregiverJoinsSenior | careclient/src/screens/RegisterCaregiverScreen.tsx:81-97 | A caregiver entering a senior's issued id joins that group and is linked to that senior, also when earlier caregivers are listed ahead of the senior |
| Groups.FirstKeyAfter | careclient/src/screens/RegisterCaregiverScreen.tsx:83-88 | A matching key preceded only by keys that do not match is the one found |
| Accounts.ScreenFor | careclient/src/screens/LoginScreen.tsx:82-90 | `senior` opens the map, `caregiver` the caregiver map, any other role nothing |
| Login.FirstRow | careclient/src/screens/LoginScreen.tsx:51-71 | The first row of the flat scan whose name and password match, none exactly when no row matches |
| Login.SearchIsFirstRow | careclient/src/screens/LoginScreen.tsx:51-71 | Breaking out of both loops at the first hit finds exactly the first matching user in the flat group-then-user scan |
| Login.LoginWith | careclient/src/screens/LoginScreen.tsx:30-94 | Empty fields are rejected and a failed read fails; otherwise the result is no match exactly when no stored user has that name and password, and a login otherwise, with the first match's group, id, name and role and the screen of that role |
| Login.SignupThenLogin | careclient/src/screens/LoginScreen.tsx:51-90 | A user written by signup logs in with its name and password and opens its role's screen, wherever its group and its entry sit, when no user read before it has the same name and password |
| RouteName.NameToSave | careclient/src/components/RouteNameInputModal.tsx:21 | The saved name is the trimmed input, or the default `새 경로` when only white space was typed; it is never empty |
| RouteName.Save | careclient/src/components/RouteNameInputModal.tsx:20-25 | Saving reports one save with that name and clears the field |
| RouteName.Close | careclient/src/components/RouteNameInputModal.tsx:27-30 | Closing clears the field and reports a close, never a save |
| RouteName.Show | careclient/src/components/RouteNameInputModal.tsx:41 | Showing the dialog clears the field |
| RouteName.SavedNameStable | careclient/src/components/RouteNameInputModal.tsx:21 | A saved name typed again with any surrounding white space saves as the same name |
| Text.TrimIdempotent | careclient/src/components/RouteNameInputModal.tsx:21 | Trimming twice is trimming once |
| Gyroscope.HeadingAsWritten | careclient/src/hooks/useGyroscope.ts:36 | (finding, as written) every reading is compared against the heading captured at subscription |
| Gyroscope.StaleComparisonExample | careclient/src/hooks/useGyroscope.ts:36 | Readings 90 then 0.05: as written the heading stays 90, corrected it becomes 0.05 |
| Gyroscope.Heading | careclient/src/hooks/useGyroscope.ts:36-38 | (finding, corrected) each reading is compared against the current heading |
| Gyroscope.HeadingTracksReading | careclient/src/hooks/useGyroscope.ts:36-38 | After a valid reading the heading is within 0.1 of it |
| LocationHistory.OnChildAddedAsWritten | careclient/src/hooks/useLocationHistory.ts:113 | (finding, as written) the listener consults the flag as of the effect run that set it up, ignoring the current one |
| LocationHistory.StaleFlagExample | careclient/src/hooks/useLocationHistory.ts:113 | A listener set up by an effect run while on route keeps appending after the walker goes off route; the corrected listener appends nothing |
| OffRoute.AimAsWritten | careclient/src/screens/MapScreen.tsx:769-801 | (finding, as written) without a nearest point the previous steps and turn are kept |
| OffRoute.GuideAsWritten | careclient/src/screens/MapScreen.tsx:732-801 | (finding, as written) with no projection the nearest point and guide line clear but steps and turn stay |
| OffRoute.StaleGuidanceExample | careclient/src/screens/MapScreen.tsx:769-801 | When no route projects, the code as written keeps cueing the old turn with no target; the corrected guidance cues nothing |

## Left out

- Database and storage I/O are left out. Listener attach and detach, session persistence, navigation, alerts and logging are not modelled. Snapshots are inputs, and statuses are outputs.
- Geometry-library internals are left out: projections, distances, bearings, simplification and buffering are parameters.
- Audio, vibration and phone calls are left out. Cues are outputs.
- Real time is left out. Timers and intervals are events, and the two duplicated direction-interval effects collapse into `DirectionTicked`.
- Effect dependency arrays are not modelled. One consequence: when the sounds finish loading while an excursion is pending, the callback identity changes and the confirmation timer is re-armed from that moment. The model keeps the original deadline.
- Mount guards (`isMounted`) are not modelled. They only suppress updates after unmount.
- Floating-point is modelled with reals. This covers the radians conversion of the yaw (the model takes degrees) and `Math.round` as floor(x + 0.5).
- A `typeof` check on a real argument cannot fail, so that branch of `calculateTurnDirection` is absent.
- The polyline splitter takes typed records with numeric coordinates and timestamps, so its branch that skips invalid records is absent. The initial history load does not validate records, so in the app that branch can be reached; the model leaves it out by choice.
- JavaScript coercion of non-numeric timestamps in sort comparators is not modelled. A numeric timestamp is its key, and a falsy one counts as 0. `true` counts as 1, and any other truthy non-number also counts as 0.
- The history queries' `startAt` bounds (the last 24 hours, then the reference plus 1 ms) are not modelled. Records arrive as inputs. Live records carry numeric timestamps, and the heading field is not validated, as in the code.
- The history hook's `isLoading` flag is not modelled. Its segment effect is `LocationHistory.Polylines`.
- `OffRoute.Step`: guidance runs the corrected `OffRoute.Aim` (see Findings). When a confirmed walker's nearest point becomes null, it clears steps and turn, so `OffRoute.StepValid`'s invariant "steps only towards a target" holds for the corrected effect. The code as written keeps the old steps and turn; that behaviour is `OffRoute.GuideAsWritten` and `OffRoute.AimAsWritten`.
- `OffRoute.CaregiverBannerMatches`: assumes the status writes are applied in the order they are sent. In the app, neither write is awaited, and `off-route` is written only after a read of the last location, while `on-route` is written at once. A quick return after confirmation can therefore store `off-route` last. The lemma is about the last status sent, not the last one stored.
- `SeniorLocation.Step`: a group read that throws after the listener is attached is not modelled. The read fails before any listener exists.
- `BufferBuilder.CalculateRouteBuffer`: failed or partial writes and exceptions thrown while reading points or metadata are folded into the buffer outcome `Thrown`. The unreachable `!lineGeometry` branch is absent.
- `Signup.SeniorSignup`: the two `Date.now()` reads are split into the id time and the creation time. The random source is the first 10 draws, and the existing groups are a fixed set during the retries.
- `Signup.SeniorSignup`: failure is promised exactly when all 10 ids are taken only without I/O errors. A throwing group read, user write or session store ends in the same reported failure in the app, and the model does not include those exceptions.
- `Signup.CaregiverSignup`: the link failure is a parameter. Exceptions while writing the user are not modelled.
- `Login.LoginWith`: the role is kept as read, and it is persisted even when it opens no screen.
- The duplicated route parser in `MapScreen.tsx` is left out because it mirrors `RouteData.ParseRoute`.

## Findings

| source | as written | input that shows it | evidently intended | confidence | as-written member | corrected member |
|---|---|---|---|---|---|---|
| careclient/src/hooks/useGyroscope.ts:36 | the callback compares each reading with the heading captured when it subscribed (always 0, the effect only re-runs on the interval) | readings 90 then 0.05: the heading stays 90 | compare with the current heading | high, not executed | Gyroscope.HeadingAsWritten, Gyroscope.StaleComparisonExample | Gyroscope.Heading, Gyroscope.HeadingTracksReading |
| careclient/src/hooks/useLocationHistory.ts:113 | the `child_added` callback reads the off-route flag as of the effect run that set it up, before the initial load (the effect re-runs only on the senior id) | set up while on route, go off route, receive a record: it is appended | skip live records while currently off route | high, not executed | LocationHistory.OnChildAddedAsWritten, LocationHistory.StaleFlagExample | LocationHistory.OnChildAdded |
| careclient/src/screens/MapScreen.tsx:769-801 | when the nearest point becomes null while confirmed, steps and turn keep their previous values | confirmed with steps 3 and turn left, then no route projects: the left cue keeps playing with no guide line | clear steps and turn without a target | low, not executed | OffRoute.AimAsWritten, OffRoute.GuideAsWritten, OffRoute.StaleGuidanceExample | OffRoute.Aim, OffRoute.Guide, OffRoute.StepValid |

=== FILE: accounts.dfy ===
/**
 * Users as stored under `/users/<groupId>/<userId>`, the session a client keeps
 * after signup or login, and the screen it opens.
 */
module Accounts {
  import opened Base
  import opened Json

  const SeniorRole: string := "senior"
  const CaregiverRole: string := "caregiver"

  /** A user node. */
  datatype UserRecord = UserRecord(name: string, phone: string, password: string, role: string, createdAt: real)

  /** The stored form of a user node. */
  function EncodeUser(u: UserRecord): (v: Value)
    ensures v.Obj?
  {
    Obj([("name", Str(u.name)), ("phone", Str(u.phone)), ("password", Str(u.password)),
         ("role", Str(u.role)), ("createdAt", Num(u.createdAt))])
  }

  /** What the client persists: group id, user id, user name and role (the role as read, possibly not a string). */
  datatype Session = Session(groupId: string, userId: string, userName: string, role: Option<Value>)

  datatype Screen = MapScreen | CaregiverMapScreen

  /** The screen a role opens; any other role opens none. */
  function ScreenFor(role: Option<Value>): (s: Option<Screen>)
    ensures s == Some(MapScreen) <==> role == Some(Str(SeniorRole))
    ensures s == Some(CaregiverMapScreen) <==> role == Some(Str(CaregiverRole))
    ensures s.None? <==> role != Some(Str(SeniorRole)) && role != Some(Str(CaregiverRole))
  {
    if role == Some(Str(SeniorRole)) then Some(MapScreen)
    else if role == Some(Str(CaregiverRole)) then Some(CaregiverMapScreen)
    else None
  }

  /** Database writes made by the signup screens. */
  datatype Write =
    | SetUser(groupId: string, userId: string, user: UserRecord)
    | LinkCaregiver(groupId: string, seniorId: string, caregiverId: string)
}

=== FILE: angles.dfy ===
/** Angles in degrees and JavaScript's remainder operator on numbers. */
module Angles {

  /** Truncation toward zero. */
  function Trunc(x: real): (t: int)
    ensures x >= 0.0 ==> t as real <= x < t as real + 1.0
    ensures x < 0.0 ==> t as real - 1.0 < x <= t as real
  {
    if x >= 0.0 then x.Floor else -((-x).Floor)
  }

  /** `k` full turns, in degrees. */
  function Turns(k: int): real
  {
    360.0 * k as real
  }

  /** `x` and `y` differ by a whole number of full turns. */
  ghost predicate SameAngle(x: real, y: real)
  {
    exists k: int :: x - y == Turns(k)
  }

  lemma MulMono(a: real, b: real, y: real)
    requires a <= b && y > 0.0
    ensures a * y <= b * y
  {
  }

  lemma MulStrict(a: real, b: real, y: real)
    requires a < b && y > 0.0
    ensures a * y < b * y
  {
  }

  /** JavaScript's `%` on numbers: the remainder of truncating division, with the sign of `x`. */
  function JsRem(x: real, y: real): (r: real)
    requires y > 0.0
    ensures x >= 0.0 ==> 0.0 <= r < y
    ensures x < 0.0 ==> -y < r <= 0.0
  {
    var t := Trunc(x / y);
    RemainderBounds(x, y, t);
    x - t as real * y
  }

  lemma RemainderBounds(x: real, y: real, t: int)
    requires y > 0.0 && t == Trunc(x / y)
    ensures x >= 0.0 ==> 0.0 <= x - t as real * y < y
    ensures x < 0.0 ==> -y < x - t as real * y <= 0.0
  {
    if x >= 0.0 {
      QuotientBelow(x, y, t as real);
      QuotientStrictlyAbove(x, y, t as real + 1.0);
      assert (t as real + 1.0) * y == t as real * y + y;
    } else {
      QuotientStrictlyBelow(x, y, t as real - 1.0);
      QuotientAbove(x, y, t as real);
      assert (t as real - 1.0) * y == t as real * y - y;
    }
  }

  lemma QuotientBelow(x: real, y: real, a: real)
    requires y > 0.0 && a <= x / y
    ensures a * y <= x
  {
    var q := x / y;
    assert x == q * y;
    MulMono(a, q, y);
  }

  lemma QuotientStrictlyBelow(x: real, y: real, a: real)
    requires y > 0.0 && a < x / y
    ensures a * y < x
  {
    var q := x / y;
    assert x == q * y;
    MulStrict(a, q, y);
  }

  lemma QuotientStrictlyAbove(x: real, y: real, b: real)
    requires y > 0.0 && x / y < b
    ensures x < b * y
  {
    var q := x / y;
    assert x == q * y;
    MulStrict(q, b, y);
  }

  lemma QuotientAbove(x: real, y: real, b: real)
    requires y > 0.0 && x / y <= b
    ensures x <= b * y
  {
    var q := x / y;
    assert x == q * y;
    MulMono(q, b, y);
  }

  lemma JsRemSameAngle(x: real)
    ensures SameAngle(JsRem(x, 360.0), x)
  {
    var t := Trunc(x / 360.0);
    assert JsRem(x, 360.0) - x == Turns(-t);
  }

  function Abs(x: real): real
  {
    if x < 0.0 then -x else x
  }
}

=== FILE: base.dfy ===
/** Shared vocabulary: optional values and map coordinates. */
module Base {

  /** A value that may be absent; `None` stands for JavaScript's `null`/`undefined`. */
  datatype Option<+T> = None | Some(value: T)

  /** A map coordinate as the client stores it: `{latitude, longitude}`. */
  datatype LatLng = LatLng(latitude: real, longitude: real)

  /** A GeoJSON position: exactly two numbers, longitude first (section 3.1.1 of RFC 7946). */
  type Position = p: seq<real> | |p| == 2 witness [0.0, 0.0]

  /** `[p.longitude, p.latitude]`, the position a coordinate becomes when handed to the geometry library. */
  function ToPosition(p: LatLng): (r: Position)
    ensures r[0] == p.longitude && r[1] == p.latitude
  {
    [p.longitude, p.latitude]
  }

  /** `{longitude: c[0], latitude: c[1]}`, the coordinate a position becomes when written back. */
  function FromPosition(c: Position): (r: LatLng)
    ensures ToPosition(r) == c
  {
    LatLng(c[1], c[0])
  }

  lemma PositionRoundTrip(p: LatLng)
    ensures FromPosition(ToPosition(p)) == p
  {
  }
}

=== FILE: buffer_builder.dfy ===
/**
 * The server-side trigger that turns a finished route into its buffer polygon:
 * it reads the route's points, orders them by time, buffers the line with the
 * geometry library and writes the exterior ring plus a status string.
 * The geometry library is a parameter; the database writes are the result.
 */
module BufferBuilder {
  import opened Base
  import opened Json
  import opened Sorting
  import opened PointRecords
  import Text

  /** `===` between two values read from snapshots: objects and arrays read separately are never identical. */
  predicate StrictEquals(a: Value, b: Value)
  {
    match (a, b)
    case (Null, Null) => true
    case (Bool(x), Bool(y)) => x == y
    case (Num(x), Num(y)) => x == y
    case (Str(x), Str(y)) => x == y
    case _ => false
  }

  /** The trigger proceeds only when `finished_at` exists after the write and its value changed. */
  predicate NeedsBuffer(before: Value, after: Value): (r: bool)
    ensures after == Null ==> !r
    ensures after != Null && before != after ==> r
    ensures after != Null && before == after ==> (r <==> after.Arr? || after.Obj?)
  {
    after != Null && !StrictEquals(before, after)
  }

  /** `Object.values(points).filter(hasLatLng).sort(byTimestamp).map(toPosition)` */
  function LineCoordinates(points: Value): (r: seq<Position>)
    ensures |r| == |Chronological(Values(points))|
    ensures forall i :: 0 <= i < |r| ==> r[i] == ToPosition(LatLngOf(Chronological(Values(points))[i]))
  {
    ToPositions(Chronological(Values(points)))
  }

  /** The fallback distance in meters when the route's metadata names none. */
  const DefaultBufferMeters: real := 9.0

  /** `metadataSnapshot.child("buffer_meters").val() || 9`: the distance handed to the buffer call is never falsy. */
  function BufferDistance(metadata: Value): (d: Value)
    ensures Truthy(d)
    ensures TruthyOpt(Get(metadata, "buffer_meters")) ==> d == Get(metadata, "buffer_meters").value
    ensures !TruthyOpt(Get(metadata, "buffer_meters")) ==> d == Num(DefaultBufferMeters)
  {
    Or(Get(metadata, "buffer_meters"), Num(DefaultBufferMeters))
  }

  /** The geometry of a buffer result, by its GeoJSON `type`. */
  datatype Geometry =
    | PolygonGeometry(rings: seq<seq<Position>>)
    | MultiPolygonGeometry(polygons: seq<seq<seq<Position>>>)
    | OtherGeometry

  /** What building the line, simplifying it and buffering it produced. */
  datatype BufferOutcome =
    | Thrown                       // an exception anywhere in the library calls
    | NoGeometry                   // a result without `geometry`
    | Built(geometry: Geometry)

  /** `lineString`, `simplify` (tolerance 0.00001, high quality) and `buffer` in meters, as one library step. */
  type BufferOp = (seq<Position>, Value) -> BufferOutcome

  /** The ring that is stored: the first ring of a polygon, or the first ring of the first polygon of a multipolygon. */
  function ExteriorRing(g: Geometry): (r: Option<seq<Position>>)
    ensures g.PolygonGeometry? ==> (r.Some? <==> |g.rings| > 0) && (r.Some? ==> r.value == g.rings[0])
    ensures g.MultiPolygonGeometry? ==>
              (r.Some? <==> |g.polygons| > 0 && |g.polygons[0]| > 0)
              && (r.Some? ==> r.value == g.polygons[0][0])
    ensures g.OtherGeometry? ==> r.None?
  {
    match g
    case PolygonGeometry(rings) => if |rings| > 0 then Some(rings[0]) else None
    case MultiPolygonGeometry(polygons) =>
      if |polygons| > 0 && |polygons[0]| > 0 then Some(polygons[0][0]) else None
    case OtherGeometry => None
  }

  /** One coordinate as written back: `{longitude: c[0], latitude: c[1]}`. */
  function EncodePosition(c: Position): (v: Value)
    ensures HasLatLng(v) && LatLngOf(v) == FromPosition(c)
  {
    var fields := [("longitude", Num(c[0])), ("latitude", Num(c[1]))];
    assert "longitude"[1] != "latitude"[1];
    assert Lookup(fields, "latitude") == Lookup(fields[1..], "latitude");
    Obj(fields)
  }

  function EncodeRing(ring: seq<Position>): (v: Value)
    ensures v.Arr? && |v.items| == |ring|
    ensures forall i :: 0 <= i < |ring| ==> v.items[i] == EncodePosition(ring[i])
  {
    Arr(seq(|ring|, i requires 0 <= i < |ring| => EncodePosition(ring[i])))
  }

  /** A database write the trigger performs, in order. */
  datatype Write =
    | SetBufferPolygon(polygon: Value)   // `buffer_polygon`
    | SetBufferStatus(status: string)    // `metadata/buffer_status`

  const ErrorCalculation: string := "error_calculation"
  const ErrorCoordinates: string := "error_coordinates"
  const ErrorException: string := "error_exception"

  /** `"complete_" + Date.now()` */
  function CompleteStatus(now: nat): (s: string)
    ensures Text.StartsWith(s, "complete_")
  {
    "complete_" + Text.NatToString(now)
  }

  function IsErrorStatus(status: string): bool
  {
    status == ErrorCalculation || status == ErrorCoordinates || status == ErrorException
  }

  lemma ErrorStatusesDistinct()
    ensures ErrorCalculation != ErrorCoordinates && ErrorCoordinates != ErrorException && ErrorCalculation != ErrorException
    ensures forall now: nat :: !IsErrorStatus(CompleteStatus(now))
  {
    assert ErrorException[6] == 'e' && ErrorCalculation[6] == 'c' && ErrorCoordinates[6] == 'c';
    assert ErrorCalculation[7] == 'a' && ErrorCoordinates[7] == 'o';
    forall now: nat ensures !IsErrorStatus(CompleteStatus(now)) {
      assert CompleteStatus(now)[0] == 'c';
    }
  }

  /**
   * The writes that follow the buffer call: the exterior ring and a completion
   * status when there is a non-empty ring, otherwise exactly one error status
   * naming what went wrong.
   */
  function WritesFor(out: BufferOutcome, now: nat): (writes: seq<Write>)
    ensures 1 <= |writes| <= 2 && writes[|writes| - 1].SetBufferStatus?
    ensures writes[|writes| - 1].status == ErrorException <==> out.Thrown?
    ensures writes[|writes| - 1].status == ErrorCalculation <==> out.NoGeometry?
    ensures |writes| == 2 <==> out.Built? && ExteriorRing(out.geometry).Some? && |ExteriorRing(out.geometry).value| > 0
    ensures |writes| == 2 ==> writes == [SetBufferPolygon(EncodeRing(ExteriorRing(out.geometry).value)), SetBufferStatus(CompleteStatus(now))]
    ensures |writes| == 1 ==> IsErrorStatus(writes[0].status)
  {
    ErrorStatusesDistinct();
    match out
    case Thrown => [SetBufferStatus(ErrorException)]
    case NoGeometry => [SetBufferStatus(ErrorCalculation)]
    case Built(geometry) =>
      var ring := ExteriorRing(geometry);
      if ring.Some? && |ring.value| > 0 then
        [SetBufferPolygon(EncodeRing(ring.value)), SetBufferStatus(CompleteStatus(now))]
      else [SetBufferStatus(ErrorCoordinates)]
  }

  /**
   * `calculateRouteBuffer`: `points` and `metadata` are the snapshots the trigger
   * reads (`Null` when absent), `now` is `Date.now()` at the final write. Nothing is
   * written unless `finished_at` changed and at least 2 usable points exist; then the
   * library is called once, on the time-ordered line and the configured distance.
   */
  function CalculateRouteBuffer(before: Value, after: Value, points: Value, metadata: Value,
                                buffer: BufferOp, now: nat): (writes: seq<Write>)
    ensures !NeedsBuffer(before, after) || points == Null || |LineCoordinates(points)| < 2 <==> writes == []
    ensures writes != [] ==> writes == WritesFor(buffer(LineCoordinates(points), BufferDistance(metadata)), now)
  {
    if !NeedsBuffer(before, after) || points == Null then []
    else
      var coordinates := LineCoordinates(points);
      if |coordinates| < 2 then []
      else WritesFor(buffer(coordinates, BufferDistance(metadata)), now)
  }
}

=== FILE: buffer_round_trip.dfy ===
/**
 * What the server writes and what the client reads back agree: the stored ring
 * decodes to the buffer's exterior ring, and the client's points are the line the
 * buffer was computed from.
 */
module BufferRoundTrip {
  import opened Base
  import opened Json
  import opened PointRecords
  import opened BufferBuilder
  import opened RouteData

  /** Decoding an encoded ring gives back every position, as a map coordinate. */
  lemma RingRoundTrip(ring: seq<Position>)
    ensures DecodeBuffer(Some(EncodeRing(ring))).Some?
    ensures var back := DecodeBuffer(Some(EncodeRing(ring))).value;
            |back| == |ring| && forall i :: 0 <= i < |ring| ==> ToPosition(back[i]) == ring[i]
  {
    var v := EncodeRing(ring);
    assert forall i :: 0 <= i < |v.items| ==> HasLatLng(v.items[i]);
  }

  /**
   * A route snapshot holding the polygon the trigger stored reads back as that
   * trigger's exterior ring.
   */
  lemma StoredBufferReadBack(before: Value, after: Value, points: Value, metadata: Value,
                             buffer: BufferOp, now: nat, raw: Value)
    requires var writes := CalculateRouteBuffer(before, after, points, metadata, buffer, now);
             |writes| == 2 && Get(raw, "buffer_polygon") == Some(writes[0].polygon)
    ensures var out := buffer(LineCoordinates(points), BufferDistance(metadata));
            var ring := ExteriorRing(out.geometry).value;
            && ParseRoute(raw).bufferPolygon.Some?
            && |ParseRoute(raw).bufferPolygon.value| == |ring|
            && forall i :: 0 <= i < |ring| ==> ToPosition(ParseRoute(raw).bufferPolygon.value[i]) == ring[i]
  {
    var out := buffer(LineCoordinates(points), BufferDistance(metadata));
    RingRoundTrip(ExteriorRing(out.geometry).value);
  }

  /**
   * The client reads the same line the trigger buffers: for a truthy points node
   * both list the decodable records in the same (stable) time order.
   */
  lemma ClientReadsServerLine(points: Value)
    requires Truthy(points)
    ensures var pts := ParsePoints(Some(points));
            |pts| == |LineCoordinates(points)|
            && forall i :: 0 <= i < |pts| ==> ToPosition(pts[i]) == LineCoordinates(points)[i]
  {
  }
}

=== FILE: groups.dfy ===
/**
 * A group node holds its members under their user ids; the senior of a group is
 * found by its id prefix. Both the caregiver's map and caregiver signup use
 * the first such id in iteration order.
 */
module Groups {
  import opened Base
  import opened Text
  import opened Json

  const SeniorPrefix: string := "senior_"
  const CaregiverPrefix: string := "caregiver_"

  /** Among the first `n` keys none starts with `prefix`. */
  predicate NoneBefore<T>(entries: seq<(string, T)>, n: int, prefix: string)
    requires 0 <= n <= |entries|
  {
    forall j :: 0 <= j < n ==> !StartsWith(entries[j].0, prefix)
  }

  /**
   * The `for...in` loop that breaks on the first key starting with `prefix`:
   * `None` when no key does, otherwise the key at the lowest such position.
   */
  function FirstKeyWithPrefix<T>(entries: seq<(string, T)>, prefix: string): (r: Option<string>)
    ensures r.None? <==> NoneBefore(entries, |entries|, prefix)
    ensures r.Some? ==> exists i :: 0 <= i < |entries| && entries[i].0 == r.value
                                    && StartsWith(r.value, prefix) && NoneBefore(entries, i, prefix)
  {
    if entries == [] then None
    else if StartsWith(entries[0].0, prefix) then
      assert NoneBefore(entries, 0, prefix);
      Some(entries[0].0)
    else
      var r := FirstKeyWithPrefix(entries[1..], prefix);
      SkipNonMatch(entries, prefix);
      r
  }

  /** Skipping a first key that does not match shifts every position by one. */
  lemma SkipNonMatch<T>(entries: seq<(string, T)>, prefix: string)
    requires entries != [] && !StartsWith(entries[0].0, prefix)
    ensures NoneBefore(entries[1..], |entries| - 1, prefix) ==> NoneBefore(entries, |entries|, prefix)
    ensures forall i :: 0 <= i < |entries| - 1 && NoneBefore(entries[1..], i, prefix) ==> NoneBefore(entries, i + 1, prefix)
  {
  }

  /** Entries after the first match never change the answer. */
  lemma {:induction false} FirstKeyStable<T>(entries: seq<(string, T)>, more: seq<(string, T)>, prefix: string)
    requires FirstKeyWithPrefix(entries, prefix).Some?
    ensures FirstKeyWithPrefix(entries + more, prefix) == FirstKeyWithPrefix(entries, prefix)
  {
    if !StartsWith(entries[0].0, prefix) {
      assert (entries + more)[1..] == entries[1..] + more;
      FirstKeyStable(entries[1..], more, prefix);
    }
  }

  /** A key that matches, preceded only by keys that do not, is the answer. */
  lemma {:induction false} FirstKeyAfter<T>(before: seq<(string, T)>, e: (string, T), after: seq<(string, T)>, prefix: string)
    requires NoneBefore(before, |before|, prefix) && StartsWith(e.0, prefix)
    ensures FirstKeyWithPrefix(before + [e] + after, prefix) == Some(e.0)
  {
    if before != [] {
      assert (before + [e] + after)[0] == before[0];
      assert (before + [e] + after)[1..] == before[1..] + [e] + after;
      FirstKeyAfter(before[1..], e, after, prefix);
    } else {
      assert (before + [e] + after)[0] == e;
    }
  }

  /** A caregiver's id never names the senior. */
  lemma CaregiverIsNotSenior(key: string)
    requires StartsWith(key, CaregiverPrefix)
    ensures !StartsWith(key, SeniorPrefix)
  {
    assert key[0] == CaregiverPrefix[0];
  }

  /** The senior of a group: the first member id starting with `senior_`. */
  function FirstSeniorId(group: Value): (r: Option<string>)
    ensures r.Some? ==> StartsWith(r.value, SeniorPrefix)
  {
    FirstKeyWithPrefix(Entries(group), SeniorPrefix)
  }
}

=== FILE: gyroscope.dfy ===
/**
 * The device heading from the orientation sensor: the yaw is normalised into
 * [0, 360) and replaces the heading only when it moved by more than 0.1 degrees.
 * The radians-to-degrees conversion is left to the sensor input.
 */
module Gyroscope {
  import opened Angles

  /** `data?.yaw`, already in degrees: a number, NaN, or anything that is not a number. */
  datatype Yaw = YawDegrees(degrees: real) | YawNaN | YawNotNumber

  const InitialHeading: real := 0.0

  /** The smallest change, in degrees, that replaces the heading. */
  const ChangeThreshold: real := 0.1

  /** `((d % 360) + 360) % 360` with JavaScript's truncating `%`. */
  function NormalizeHeading(d: real): (h: real)
    ensures 0.0 <= h < 360.0
    ensures SameAngle(h, d)
    ensures 0.0 <= d < 360.0 ==> h == d
  {
    var a := JsRem(d, 360.0);
    var h := JsRem(a + 360.0, 360.0);
    JsRemSameAngle(d);
    JsRemSameAngle(a + 360.0);
    var k1 :| a - d == Turns(k1);
    var k2 :| h - (a + 360.0) == Turns(k2);
    assert h - d == Turns(k1 + k2 + 1);
    NormalizeInRange(d, a, h);
    h
  }

  lemma NormalizeInRange(d: real, a: real, h: real)
    requires a == JsRem(d, 360.0) && h == JsRem(a + 360.0, 360.0)
    ensures 0.0 <= d < 360.0 ==> h == d
  {
    if 0.0 <= d < 360.0 {
      assert Trunc(d / 360.0) == 0;
      assert a == d;
      assert 1.0 <= (a + 360.0) / 360.0 < 2.0;
      assert Trunc((a + 360.0) / 360.0) == 1;
    }
  }

  /**
   * One sensor callback. `compared` is the heading the callback compares the new
   * reading against; the heading changes only for a numeric, non-NaN yaw whose
   * normalised value is more than the threshold away from `compared`.
   */
  function OnSample(heading: real, compared: real, yaw: Yaw): (r: real)
    ensures !yaw.YawDegrees? ==> r == heading
    ensures yaw.YawDegrees? ==>
              if Abs(compared - NormalizeHeading(yaw.degrees)) > ChangeThreshold
              then r == NormalizeHeading(yaw.degrees)
              else r == heading
    ensures 0.0 <= heading < 360.0 ==> 0.0 <= r < 360.0
  {
    match yaw
    case YawDegrees(d) =>
      var h := NormalizeHeading(d);
      if Abs(compared - h) > ChangeThreshold then h else heading
    case _ => heading
  }

  /**
   * The subscription as written: every callback compares against the heading
   * captured when it subscribed, which is the initial 0.
   */
  function HeadingAsWritten(samples: seq<Yaw>): (h: real)
    ensures 0.0 <= h < 360.0
  {
    if samples == [] then InitialHeading
    else OnSample(HeadingAsWritten(samples[..|samples| - 1]), InitialHeading, samples[|samples| - 1])
  }

  /** The subscription comparing against the current heading, as the update rule intends. */
  function Heading(samples: seq<Yaw>): (h: real)
    ensures 0.0 <= h < 360.0
  {
    if samples == [] then InitialHeading
    else
      var prev := Heading(samples[..|samples| - 1]);
      OnSample(prev, prev, samples[|samples| - 1])
  }

  /** As written, a reading within 0.1 degrees of north never replaces an earlier heading. */
  lemma StaleComparisonExample()
    ensures HeadingAsWritten([YawDegrees(90.0), YawDegrees(0.05)]) == 90.0
    ensures Heading([YawDegrees(90.0), YawDegrees(0.05)]) == 0.05
  {
    var s := [YawDegrees(90.0), YawDegrees(0.05)];
    assert s[..1] == [YawDegrees(90.0)];
    assert s[..1][..0] == [];
  }

  /** With the intended comparison, the heading stays within 0.1 degrees of the latest valid reading. */
  lemma {:induction false} HeadingTracksReading(samples: seq<Yaw>)
    requires samples != [] && samples[|samples| - 1].YawDegrees?
    ensures Abs(Heading(samples) - NormalizeHeading(samples[|samples| - 1].degrees)) <= ChangeThreshold
  {
  }

  /** Invalid readings leave the heading untouched. */
  lemma {:induction false} InvalidReadingIgnored(samples: seq<Yaw>, yaw: Yaw)
    requires !yaw.YawDegrees?
    ensures Heading(samples + [yaw]) == Heading(samples)
    ensures HeadingAsWritten(samples + [yaw]) == HeadingAsWritten(samples)
  {
    assert (samples + [yaw])[..|samples|] == samples;
  }
}

=== FILE: json.dfy ===
/**
 * Values read from the realtime database, with the JavaScript operations the
 * application applies to them. A snapshot that does not exist reads as `Null`;
 * a property that is absent reads as `None` (JavaScript's `undefined`).
 * Object fields are listed in JavaScript's iteration order.
 */
module Json {
  import opened Base
  import Text

  datatype Value =
    | Null
    | Bool(b: bool)
    | Num(n: real)
    | Str(s: string)
    | Arr(items: seq<Value>)
    | Obj(fields: seq<(string, Value)>)

  function Lookup(fields: seq<(string, Value)>, key: string): (r: Option<Value>)
    ensures r.Some? <==> exists i :: 0 <= i < |fields| && fields[i].0 == key
    ensures r.Some? ==> exists i :: 0 <= i < |fields| && fields[i] == (key, r.value)
  {
    if fields == [] then None
    else if fields[0].0 == key then Some(fields[0].1)
    else Lookup(fields[1..], key)
  }

  /** A key is found at its first occurrence. */
  lemma {:induction false} LookupFirst(fields: seq<(string, Value)>, key: string, i: int)
    requires 0 <= i < |fields| && fields[i].0 == key
    requires forall j :: 0 <= j < i ==> fields[j].0 != key
    ensures Lookup(fields, key) == Some(fields[i].1)
  {
    if i > 0 {
      LookupFirst(fields[1..], key, i - 1);
    }
  }

  /** Property access `v.key` (also `v?.key`); only objects carry named properties here. */
  function Get(v: Value, key: string): (r: Option<Value>)
    ensures r.Some? ==> v.Obj?
  {
    if v.Obj? then Lookup(v.fields, key) else None
  }

  /** JavaScript truthiness of a present value. */
  predicate Truthy(v: Value)
  {
    match v
    case Null => false
    case Bool(b) => b
    case Num(n) => n != 0.0
    case Str(s) => s != ""
    case Arr(_) => true
    case Obj(_) => true
  }

  /** Truthiness of a possibly undefined value. */
  predicate TruthyOpt(o: Option<Value>)
  {
    o.Some? && Truthy(o.value)
  }

  /** `typeof x === 'number'` */
  predicate IsNum(o: Option<Value>)
  {
    o.Some? && o.value.Num?
  }

  /** `typeof x === 'string'` */
  predicate IsStr(o: Option<Value>)
  {
    o.Some? && o.value.Str?
  }

  /** `x || fallback` */
  function Or(o: Option<Value>, fallback: Value): (r: Value)
    ensures TruthyOpt(o) ==> r == o.value
    ensures !TruthyOpt(o) ==> r == fallback
  {
    if TruthyOpt(o) then o.value else fallback
  }

  /** `Object.values(v)`; primitives yield no values the application can use. */
  function Values(v: Value): (r: seq<Value>)
    ensures v.Arr? ==> r == v.items
    ensures v.Obj? ==> |r| == |v.fields| && forall i :: 0 <= i < |r| ==> r[i] == v.fields[i].1
  {
    match v
    case Arr(items) => items
    case Obj(fields) => seq(|fields|, i requires 0 <= i < |fields| => fields[i].1)
    case _ => []
  }

  /** The (key, value) pairs visited by `for (const k in v)`; array keys are decimal indices. */
  function Entries(v: Value): (r: seq<(string, Value)>)
    ensures v.Obj? ==> r == v.fields
    ensures v.Arr? ==> |r| == |v.items| && forall i :: 0 <= i < |r| ==> r[i] == (Text.NatToString(i), v.items[i])
    ensures !v.Obj? && !v.Arr? ==> r == []
  {
    match v
    case Obj(fields) => fields
    case Arr(items) => seq(|items|, i requires 0 <= i < |items| => (Text.NatToString(i), items[i]))
    case _ => []
  }
}

=== FILE: location_history.dfy ===
/**
 * The location history behind the drawn polylines: the initial load of the last
 * day's records, sorted by time, and the rule that appends live records. The
 * list stays time-ordered, which the polyline splitter relies on.
 */
module LocationHistory {
  import opened Base
  import opened Sorting
  import opened Polyline

  /** Polylines break at gaps of more than 2 minutes. */
  const SplitGapMinutes: real := 2.0

  function Timestamp(r: LocationRecord): real
  {
    r.timestamp
  }

  datatype HistoryError =
    | MissingSeniorId     // no senior id was given
    | ListenerFailed      // the live listener reported an error
    | LoadFailed          // the initial load threw

  /**
   * The hook's state: the raw records and the reference record, the last one
   * accepted. A live record must be newer than the reference.
   */
  datatype History = History(records: seq<LocationRecord>, last: Option<LocationRecord>, error: Option<HistoryError>)

  /**
   * A live `child_added` value. The model takes its timestamp to be a number: the
   * query's lower bound does not exclude non-numeric timestamps, which sort after
   * every number, so this is a modelling choice. Latitude and longitude are `None`
   * when they are not numbers.
   */
  datatype Incoming = Incoming(latitude: Option<real>, longitude: Option<real>, heading: real, timestamp: real)

  /** Subscribing without a senior id yields no records and an error. */
  function Subscribe(seniorId: Option<string>): (h: History)
    ensures seniorId.None? || seniorId.value == "" ==> h.records == [] && h.error == Some(MissingSeniorId)
    ensures seniorId.Some? && seniorId.value != "" ==> h.records == [] && h.last.None? && h.error.None?
  {
    if seniorId.None? || seniorId.value == "" then History([], None, Some(MissingSeniorId))
    else History([], None, None)
  }

  /**
   * The initial load: the records of the snapshot (`None` when it does not exist)
   * sorted by timestamp; the last of them becomes the reference.
   */
  function InitialLoad(h: History, snapshot: Option<seq<LocationRecord>>): (r: History)
    ensures snapshot.None? ==> r.records == [] && r.last == h.last
    ensures snapshot.Some? ==> SortedBy(r.records, Timestamp) && multiset(r.records) == multiset(snapshot.value)
    ensures snapshot.Some? && snapshot.value != [] ==> r.last == Some(r.records[|r.records| - 1])
    ensures r.error == h.error
  {
    match snapshot
    case None => h.(records := [])
    case Some(values) =>
      SortPermutes(values, Timestamp);
      var sorted := SortBy(values, Timestamp);
      if |sorted| > 0 then h.(records := sorted, last := Some(sorted[|sorted| - 1]))
      else h.(records := sorted)
  }

  /** A record already held with the same timestamp, latitude and longitude. */
  predicate Duplicate(records: seq<LocationRecord>, rec: LocationRecord)
  {
    exists r :: r in records && r.timestamp == rec.timestamp && r.latitude == rec.latitude && r.longitude == rec.longitude
  }

  /** The live record passes the listener's filter. */
  predicate Admissible(h: History, offRoute: bool, c: Incoming)
  {
    && !offRoute
    && c.latitude.Some? && c.longitude.Some?
    && (h.last.None? || c.timestamp > h.last.value.timestamp)
  }

  function ToRecord(c: Incoming): LocationRecord
    requires c.latitude.Some? && c.longitude.Some?
  {
    LocationRecord(c.latitude.value, c.longitude.value, c.heading, c.timestamp)
  }

  /**
   * The `child_added` rule, given the off-route flag the listener consults
   * (`child` is `None` for a snapshot that does not exist). An admissible record is
   * appended unless an identical one is held, and becomes the reference either way.
   */
  function Accept(h: History, offRoute: bool, child: Option<Incoming>): (r: History)
    ensures child.None? || !Admissible(h, offRoute, child.value) ==> r == h
    ensures offRoute ==> r == h
    ensures child.Some? && Admissible(h, offRoute, child.value) ==>
              && r.last == Some(ToRecord(child.value))
              && r.records == (if Duplicate(h.records, ToRecord(child.value)) then h.records
                               else h.records + [ToRecord(child.value)])
    ensures r.error == h.error
  {
    if child.Some? && Admissible(h, offRoute, child.value) then
      var rec := ToRecord(child.value);
      var records := if Duplicate(h.records, rec) then h.records else h.records + [rec];
      h.(records := records, last := Some(rec))
    else h
  }

  /** A listener error is reported; the records stay. */
  function OnListenerError(h: History): (r: History)
    ensures r.error == Some(ListenerFailed) && r.records == h.records && r.last == h.last
  {
    h.(error := Some(ListenerFailed))
  }

  /** The initial load threw: the error is reported and nothing is listened to; the records stay. */
  function OnLoadError(h: History): (r: History)
    ensures r.error == Some(LoadFailed) && r.records == h.records && r.last == h.last
  {
    h.(error := Some(LoadFailed))
  }

  /**
   * The segment effect: the history drawn as polylines, broken wherever two
   * consecutive records lie more than 2 minutes (120000 ms) apart.
   */
  method Polylines(h: History) returns (segments: seq<seq<LatLng>>)
    ensures h.records == [] ==> segments == []
    ensures |h.records| == 1 ==> segments == [[Point(h.records[0])]]
    ensures |h.records| >= 2 ==> segments == Runs(h.records, 120000.0)
  {
    segments := SplitPolylineByTimeGap(h.records, SplitGapMinutes);
  }

  /** The list is time-ordered and its newest record is the reference. */
  predicate WellFormed(h: History)
  {
    && SortedBy(h.records, Timestamp)
    && (h.records == [] <==> h.last.None?)
    && (h.records != [] ==> h.last == Some(h.records[|h.records| - 1]))
  }

  lemma SubscribeWellFormed(seniorId: Option<string>)
    ensures WellFormed(Subscribe(seniorId))
  {
  }

  lemma InitialLoadWellFormed(h: History, snapshot: Option<seq<LocationRecord>>)
    requires h.last.None?
    ensures WellFormed(InitialLoad(h, snapshot))
  {
  }

  /** Accepting live records keeps the list time-ordered, so it remains valid input for the splitter. */
  lemma AcceptPreservesWellFormed(h: History, offRoute: bool, child: Option<Incoming>)
    requires WellFormed(h)
    ensures WellFormed(Accept(h, offRoute, child))
  {
    if child.Some? && Admissible(h, offRoute, child.value) {
      var rec := ToRecord(child.value);
      NoDuplicateOfNewer(h, rec);
      var rs := h.records + [rec];
      forall i, j | 0 <= i < j < |rs| ensures Timestamp(rs[i]) <= Timestamp(rs[j]) {
        if j == |rs| - 1 && h.records != [] {
          assert Timestamp(rs[i]) <= Timestamp(h.records[|h.records| - 1]);
        }
      }
    }
  }

  /** In a well-formed history every record is at or before the reference, so a newer record is never a duplicate. */
  lemma NoDuplicateOfNewer(h: History, rec: LocationRecord)
    requires WellFormed(h)
    requires h.last.None? || rec.timestamp > h.last.value.timestamp
    ensures !Duplicate(h.records, rec)
  {
    if h.records != [] {
      var n := |h.records|;
      forall i | 0 <= i < n
        ensures h.records[i].timestamp < rec.timestamp
      {
        assert Timestamp(h.records[i]) <= Timestamp(h.records[n - 1]);
      }
    }
  }

  // ---------------------------------------------------------------------------
  // The off-route flag the listener sees

  /** A live listener, with the off-route flag as it was when the subscribing effect ran (before the initial load). */
  datatype Listener = Listener(offRouteAtEffect: bool)

  /** As written: the callback consults the flag captured when the effect ran, whatever the flag is now. */
  function OnChildAddedAsWritten(l: Listener, h: History, offRouteNow: bool, child: Option<Incoming>): (r: History)
    ensures l.offRouteAtEffect ==> r == h
    ensures !l.offRouteAtEffect ==> r == Accept(h, false, child)
  {
    Accept(h, l.offRouteAtEffect, child)
  }

  /** As intended: the callback consults the current flag, so nothing is appended while off route. */
  function OnChildAdded(l: Listener, h: History, offRouteNow: bool, child: Option<Incoming>): (r: History)
    ensures offRouteNow ==> r == h
    ensures !offRouteNow ==> r == Accept(h, false, child)
  {
    Accept(h, offRouteNow, child)
  }

  /** A listener set up by an effect run while on route keeps appending after the walker goes off route. */
  lemma StaleFlagExample()
    ensures var h := History([], None, None);
            var c := Incoming(Some(37.5), Some(127.0), 0.0, 1000.0);
            && OnChildAddedAsWritten(Listener(false), h, true, Some(c)).records == [ToRecord(c)]
            && OnChildAdded(Listener(false), h, true, Some(c)).records == []
  {
    var h := History([], None, None);
    var c := Incoming(Some(37.5), Some(127.0), 0.0, 1000.0);
    assert !Duplicate([], ToRecord(c));
  }
}

=== FILE: login.dfy ===
/**
 * Login by name and password: a scan over every group and every user in it,
 * stopping at the first user whose stored name and password both equal the
 * input, then dispatch on that user's role.
 */
module Login {
  import opened Base
  import opened Json
  import opened Accounts

  /** One user in scan order: the group it sits in, its id and its node. */
  datatype Row<T> = Row(groupId: string, userId: string, user: T)

  /** The inner loop: the first user of a group accepted by `p`. */
  function FirstUser<T>(users: seq<(string, T)>, p: T -> bool): (r: Option<(string, T)>)
    ensures r.None? <==> forall i :: 0 <= i < |users| ==> !p(users[i].1)
    ensures r.Some? ==> r.value in users && p(r.value.1)
  {
    if users == [] then None
    else if p(users[0].1) then Some(users[0])
    else
      var r := FirstUser(users[1..], p);
      assert forall i :: 1 <= i < |users| ==> users[i] == users[1..][i - 1];
      r
  }

  /** The nested loops over groups and their users, leaving both at the first accepted user. */
  function SearchGroups<T>(groups: seq<(string, seq<(string, T)>)>, p: T -> bool): (r: Option<Row<T>>)
    ensures r.Some? ==> p(r.value.user)
  {
    if groups == [] then None
    else match FirstUser(groups[0].1, p)
      case Some(u) => Some(Row(groups[0].0, u.0, u.1))
      case None => SearchGroups(groups[1..], p)
  }

  /** The users of one group as rows. */
  function GroupRows<T>(groupId: string, users: seq<(string, T)>): (rows: seq<Row<T>>)
    ensures |rows| == |users|
    ensures forall i :: 0 <= i < |rows| ==> rows[i] == Row(groupId, users[i].0, users[i].1)
  {
    if users == [] then [] else [Row(groupId, users[0].0, users[0].1)] + GroupRows(groupId, users[1..])
  }

  /** Every user of every group, groups first, users in order within each group. */
  function Scan<T>(groups: seq<(string, seq<(string, T)>)>): seq<Row<T>>
  {
    if groups == [] then [] else GroupRows(groups[0].0, groups[0].1) + Scan(groups[1..])
  }

  /** The first row of a flat scan accepted by `p`. */
  function FirstRow<T>(rows: seq<Row<T>>, p: T -> bool): (r: Option<Row<T>>)
    ensures r.None? <==> forall i :: 0 <= i < |rows| ==> !p(rows[i].user)
    ensures r.Some? ==> exists i :: 0 <= i < |rows| && rows[i] == r.value && p(rows[i].user)
                                    && forall j :: 0 <= j < i ==> !p(rows[j].user)
  {
    if rows == [] then None
    else if p(rows[0].user) then Some(rows[0])
    else
      var r := FirstRow(rows[1..], p);
      assert forall i :: 1 <= i < |rows| ==> rows[i] == rows[1..][i - 1];
      r
  }

  lemma {:induction false} FirstRowAppend<T>(a: seq<Row<T>>, b: seq<Row<T>>, p: T -> bool)
    ensures FirstRow(a + b, p) == if FirstRow(a, p).Some? then FirstRow(a, p) else FirstRow(b, p)
  {
    if a != [] {
      assert (a + b)[1..] == a[1..] + b;
      FirstRowAppend(a[1..], b, p);
    } else {
      assert a + b == b;
    }
  }

  lemma {:induction false} FirstRowOfGroup<T>(groupId: string, users: seq<(string, T)>, p: T -> bool)
    ensures FirstRow(GroupRows(groupId, users), p) ==
            match FirstUser(users, p)
            case Some(u) => Some(Row(groupId, u.0, u.1))
            case None => None
  {
    if users != [] {
      FirstRowOfGroup(groupId, users[1..], p);
      assert GroupRows(groupId, users)[1..] == GroupRows(groupId, users[1..]);
    }
  }

  /** Breaking out of both loops at the first hit finds exactly the first accepted row of the flat scan. */
  lemma {:induction false} SearchIsFirstRow<T>(groups: seq<(string, seq<(string, T)>)>, p: T -> bool)
    ensures SearchGroups(groups, p) == FirstRow(Scan(groups), p)
  {
    if groups != [] {
      FirstRowAppend(GroupRows(groups[0].0, groups[0].1), Scan(groups[1..]), p);
      FirstRowOfGroup(groups[0].0, groups[0].1, p);
      SearchIsFirstRow(groups[1..], p);
    }
  }

  // ---------------------------------------------------------------------------

  /** `user && user.name === name && user.password === password` */
  predicate Matches(user: Value, name: string, password: string)
  {
    Get(user, "name") == Some(Str(name)) && Get(user, "password") == Some(Str(password))
  }

  function Matcher(name: string, password: string): Value -> bool
  {
    u => Matches(u, name, password)
  }

  /** The first row the matcher accepts is the first row whose name and password match. */
  lemma FirstMatchRow(rows: seq<Row<Value>>, name: string, password: string)
    ensures var r := FirstRow(rows, Matcher(name, password));
            && (r.None? <==> forall i :: 0 <= i < |rows| ==> !Matches(rows[i].user, name, password))
            && (r.Some? ==> exists i :: 0 <= i < |rows| && rows[i] == r.value && Matches(rows[i].user, name, password)
                                      && forall j :: 0 <= j < i ==> !Matches(rows[j].user, name, password))
  {
    var p := Matcher(name, password);
    assert forall u :: p(u) == Matches(u, name, password);
  }

  /** The row found carries the session of the first matching row. */
  lemma FoundRow(rows: seq<Row<Value>>, name: string, password: string, row: Row<Value>)
    requires FirstRow(rows, Matcher(name, password)) == Some(row)
    ensures exists i :: 0 <= i < |rows| && Matches(rows[i].user, name, password)
                        && (forall j :: 0 <= j < i ==> !Matches(rows[j].user, name, password))
                        && Session(row.groupId, row.userId, name, Get(row.user, "role"))
                           == Session(rows[i].groupId, rows[i].userId, name, Get(rows[i].user, "role"))
  {
    FirstMatchRow(rows, name, password);
  }

  /** The `/users` tree as groups of (user id, user node) pairs, in iteration order. */
  function GroupsOf(all: Value): (groups: seq<(string, seq<(string, Value)>)>)
    ensures |groups| == |Entries(all)|
  {
    var es := Entries(all);
    seq(|es|, i requires 0 <= i < |es| => (es[i].0, Entries(es[i].1)))
  }

  datatype LoginOutcome =
    | Rejected                                     // empty name or password
    | Failed                                       // the read threw
    | NoMatch                                      // no user has that name and password
    | LoggedIn(session: Session, screen: Option<Screen>)   // `None`: unknown role, nothing opened

  /**
   * `handleLogin`, given the `/users` tree (`None` when the read threw, `Null` when
   * it is empty). The session is persisted before the role is dispatched, so it is
   * kept even when the role opens no screen.
   */
  function LoginWith(name: string, password: string, users: Option<Value>): (r: LoginOutcome)
    ensures name == "" || password == "" ==> r == Rejected
    ensures name != "" && password != "" && users.None? ==> r == Failed
    ensures name != "" && password != "" && users.Some? ==>
              var rows := Scan(GroupsOf(users.value));
              && (r == NoMatch <==> forall i :: 0 <= i < |rows| ==> !Matches(rows[i].user, name, password))
              && (r.LoggedIn? ==> exists i :: 0 <= i < |rows| && Matches(rows[i].user, name, password)
                                    && (forall j :: 0 <= j < i ==> !Matches(rows[j].user, name, password))
                                    && r.session == Session(rows[i].groupId, rows[i].userId, name, Get(rows[i].user, "role")))
    ensures name != "" && password != "" && users.Some? ==> r.NoMatch? || r.LoggedIn?
    ensures r.LoggedIn? ==> r.screen == ScreenFor(r.session.role)
  {
    if name == "" || password == "" then Rejected
    else if users.None? then Failed
    else
      var groups := GroupsOf(users.value);
      SearchIsFirstRow(groups, Matcher(name, password));
      FirstMatchRow(Scan(groups), name, password);
      match SearchGroups(groups, Matcher(name, password))
      case None => NoMatch
      case Some(row) =>
        FoundRow(Scan(groups), name, password, row);
        var session := Session(row.groupId, row.userId, name, Get(row.user, "role"));
        LoggedIn(session, ScreenFor(session.role))
  }

  /** No user of any of the groups has this name and password. */
  predicate NoneMatch(groups: seq<(string, seq<(string, Value)>)>, name: string, password: string)
  {
    forall g, k :: 0 <= g < |groups| && 0 <= k < |groups[g].1| ==> !Matches(groups[g].1[k].1, name, password)
  }

  /**
   * A user written by signup logs in with its name and password and opens its role's
   * screen, wherever its group sits in the `/users` tree and wherever it sits in its
   * group, as long as no user read before it has the same name and password.
   */
  lemma SignupThenLogin(before: seq<(string, Value)>, groupId: string, members: seq<(string, Value)>,
                        userId: string, u: UserRecord, after: seq<(string, Value)>)
    requires u.name != "" && u.password != ""
    requires NoneMatch(GroupsOf(Obj(before)), u.name, u.password)
    requires forall k :: 0 <= k < |members| ==> !Matches(members[k].1, u.name, u.password)
    ensures var tree := Obj(before + [(groupId, Obj(members + [(userId, EncodeUser(u))]))] + after);
            LoginWith(u.name, u.password, Some(tree))
              == LoggedIn(Session(groupId, userId, u.name, Some(Str(u.role))), ScreenFor(Some(Str(u.role))))
  {
    EncodedUserMatches(u);
    var user := (userId, EncodeUser(u));
    var tree := Obj(before + [(groupId, Obj(members + [user]))] + after);
    var head := GroupsOf(Obj(before));
    var rest := [(groupId, members + [user])] + GroupsOf(Obj(after));
    GroupsOfSplit(before, (groupId, Obj(members + [user])), after);
    MatcherSkips(head, rest, u.name, u.password);
    MatcherFindsLast(members, user, u.name, u.password);
    var row := Row(groupId, userId, EncodeUser(u));
    assert SearchGroups(rest, Matcher(u.name, u.password)) == Some(row);
    LoginFinds(u.name, u.password, tree, Row(groupId, userId, EncodeUser(u)));
  }

  /** The groups of a tree whose group list is split around one group. */
  lemma GroupsOfSplit(before: seq<(string, Value)>, g: (string, Value), after: seq<(string, Value)>)
    ensures GroupsOf(Obj(before + [g] + after)) == GroupsOf(Obj(before)) + ([(g.0, Entries(g.1))] + GroupsOf(Obj(after)))
  {
  }

  /** Login ends with the session of the row the nested search stops at. */
  lemma LoginFinds(name: string, password: string, users: Value, row: Row<Value>)
    requires name != "" && password != ""
    requires SearchGroups(GroupsOf(users), Matcher(name, password)) == Some(row)
    ensures LoginWith(name, password, Some(users))
              == LoggedIn(Session(row.groupId, row.userId, name, Get(row.user, "role")),
                          ScreenFor(Get(row.user, "role")))
  {
  }

  /** Groups in which nobody has this name and password are passed over. */
  lemma MatcherSkips(head: seq<(string, seq<(string, Value)>)>, rest: seq<(string, seq<(string, Value)>)>,
                     name: string, password: string)
    requires NoneMatch(head, name, password)
    ensures SearchGroups(head + rest, Matcher(name, password)) == SearchGroups(rest, Matcher(name, password))
  {
    var p := Matcher(name, password);
    assert forall v :: p(v) == Matches(v, name, password);
    SearchSkips(head, rest, p);
  }

  /** A matching user preceded only by users who do not match is the one found in its group. */
  lemma MatcherFindsLast(members: seq<(string, Value)>, user: (string, Value), name: string, password: string)
    requires forall k :: 0 <= k < |members| ==> !Matches(members[k].1, name, password)
    requires Matches(user.1, name, password)
    ensures FirstUser(members + [user], Matcher(name, password)) == Some(user)
  {
    var p := Matcher(name, password);
    assert forall v :: p(v) == Matches(v, name, password);
    FirstUserAfter(members, user, p);
  }

  /** A user preceded only by users the matcher rejects is the first one found. */
  lemma {:induction false} FirstUserAfter(members: seq<(string, Value)>, x: (string, Value), p: Value -> bool)
    requires forall k :: 0 <= k < |members| ==> !p(members[k].1)
    requires p(x.1)
    ensures FirstUser(members + [x], p) == Some(x)
  {
    if members != [] {
      assert (members + [x])[1..] == members[1..] + [x];
      FirstUserAfter(members[1..], x, p);
    } else {
      assert members + [x] == [x];
    }
  }

  /** Groups in which the matcher accepts nobody are passed over. */
  lemma {:induction false} SearchSkips(head: seq<(string, seq<(string, Value)>)>, rest: seq<(string, seq<(string, Value)>)>,
                                       p: Value -> bool)
    requires forall g, k :: 0 <= g < |head| && 0 <= k < |head[g].1| ==> !p(head[g].1[k].1)
    ensures SearchGroups(head + rest, p) == SearchGroups(rest, p)
  {
    if head != [] {
      assert (head + rest)[0] == head[0];
      assert FirstUser(head[0].1, p).None?;
      assert (head + rest)[1..] == head[1..] + rest;
      SearchSkips(head[1..], rest, p);
    } else {
      assert head + rest == rest;
    }
  }

  /** A stored user record matches its own name and password and carries its role. */
  lemma EncodedUserMatches(u: UserRecord)
    ensures Matches(EncodeUser(u), u.name, u.password)
    ensures Get(EncodeUser(u), "role") == Some(Str(u.role))
  {
    EncodedName(u);
    EncodedPassword(u);
    EncodedRole(u);
  }

  lemma EncodedName(u: UserRecord)
    ensures Get(EncodeUser(u), "name") == Some(Str(u.name))
  {
    LookupFirst(EncodeUser(u).fields, "name", 0);
  }

  lemma EncodedPassword(u: UserRecord)
    ensures Get(EncodeUser(u), "password") == Some(Str(u.password))
  {
    assert "password"[0] != "name"[0] && "password"[1] != "phone"[1];
    LookupFirst(EncodeUser(u).fields, "password", 2);
  }

  lemma EncodedRole(u: UserRecord)
    ensures Get(EncodeUser(u), "role") == Some(Str(u.role))
  {
    assert "role"[0] != "name"[0] && "role"[0] != "phone"[0] && "role"[0] != "password"[0];
    LookupFirst(EncodeUser(u).fields, "role", 3);
  }
}

=== FILE: off_route.dfy ===
/**
 * The walker's off-route lifecycle on the map screen: deviation detection against
 * the registered routes' buffer polygons, confirmation after 5 seconds, the alarm,
 * the guidance back to the nearest route point, the direction cues, and the
 * status the caregiver is sent.
 *
 * One event is processed until every effect it triggers has settled, so each
 * step maps a settled state to the next settled state. Timers and intervals are
 * events: `TimerFired` is the confirmation timer, `DirectionTick` and `AlarmTick`
 * the two repeating intervals.
 */
module OffRoute {
  import opened Base
  import opened RouteUtils
  import opened RouteAlerts
  import opened Json
  import RouteData

  /** The confirmation delay, in milliseconds. */
  const ConfirmDelay: int := 5000

  /** The walker's step length, in meters. */
  const StepLength: real := 0.6

  /** The geometry library calls and the session's ability to notify (group and user ids known). */
  datatype Env = Env(
    canNotify: bool,
    contains: PointInPolygon,
    nearestOn: NearestOnLine,
    distance: (LatLng, LatLng) -> real,    // meters
    bearing: (LatLng, LatLng) -> real)     // degrees

  /** The screen's off-route state after every effect has settled. */
  datatype Tracker = Tracker(
    offRoute: bool,
    startTime: Option<int>,
    path: seq<LatLng>,
    confirmed: bool,
    deadline: Option<int>,                  // the armed confirmation timer
    alertVisible: bool,
    alarmPlaying: bool,
    soundLoading: bool,
    nearest: Option<LatLng>,
    guideLine: seq<LatLng>,
    steps: Option<nat>,
    turn: Option<Turn>,
    guidanceUi: bool,
    location: Option<LatLng>,
    routes: seq<Option<RouteData.RouteData>>,
    heading: real)

  /** The screen when it opens: on route, sounds still loading. */
  const Initial: Tracker := Tracker(false, None, [], false, None, false, false, true, None, [], None, None, false, None, [], 0.0)

  datatype Output =
    | Notify(status: RouteStatus)           // the status sent for the caregiver
    | AlarmCue                              // one round of alarm sound and vibration
    | DirectionCue(direction: Turn)         // one left or right sound and vibration

  datatype StepResult = StepResult(t: Tracker, out: seq<Output>)

  // ---------------------------------------------------------------------------
  // Geometry available to the screen

  /** The buffer polygons that take part: present with more than 3 vertices. */
  function UsableBuffers(routes: seq<Option<RouteData.RouteData>>): (r: seq<seq<LatLng>>)
    ensures forall i :: 0 <= i < |r| ==> |r[i]| > 3
    ensures r == [] <==> forall i :: 0 <= i < |routes| ==>
              routes[i].None? || routes[i].value.bufferPolygon.None? || |routes[i].value.bufferPolygon.value| <= 3
  {
    if routes == [] then []
    else
      var rest := UsableBuffers(routes[1..]);
      assert forall i :: 1 <= i < |routes| ==> routes[i] == routes[1..][i - 1];
      var d := routes[0];
      if d.Some? && d.value.bufferPolygon.Some? && |d.value.bufferPolygon.value| > 3
      then [d.value.bufferPolygon.value] + rest
      else rest
  }

  /** The route polylines that take part in the nearest-point search: at least 2 points. */
  function RouteLines(routes: seq<Option<RouteData.RouteData>>): (r: seq<seq<LatLng>>)
    ensures forall i :: 0 <= i < |r| ==> |r[i]| >= 2
  {
    if routes == [] then []
    else
      var rest := RouteLines(routes[1..]);
      if routes[0].Some? && |routes[0].value.points| >= 2 then [routes[0].value.points] + rest else rest
  }

  datatype Reading = NoGeometry | Inside | Outside(at: LatLng)

  /**
   * What the deviation effect sees: no geometry when there is no location, a route
   * is being registered, no route is loaded, or no buffer is usable; otherwise
   * whether the location lies in the union of the usable buffers.
   */
  function Observe(location: Option<LatLng>, registering: bool, routes: seq<Option<RouteData.RouteData>>,
                   contains: PointInPolygon): (r: Reading)
    ensures r.NoGeometry? <==> location.None? || registering || routes == [] || UsableBuffers(routes) == []
    ensures r.Inside? ==> InsideUnion(location.value, UsableBuffers(routes), contains)
    ensures r.Outside? ==> r.at == location.value && !InsideUnion(location.value, UsableBuffers(routes), contains)
  {
    if location.None? || registering || routes == [] then NoGeometry
    else
      var buffers := UsableBuffers(routes);
      if buffers == [] then NoGeometry
      else if IsPointInsideAnyBuffer(location, buffers, contains) then Inside
      else Outside(location.value)
  }

  // ---------------------------------------------------------------------------
  // Alarm and cues

  /** `startAlarmNotification`: a no-op while the alarm plays or the sounds are loading. */
  function StartAlarm(playing: bool, soundLoading: bool): (r: bool)
    ensures playing || soundLoading ==> r == playing
    ensures r <==> playing || !soundLoading
  {
    if playing || soundLoading then playing else true
  }

  /** `Math.round(x)` for the non-negative values it is applied to, as `floor(x + 0.5)`. */
  function Round(x: real): int
  {
    (x + 0.5).Floor
  }

  /** `Math.max(0, Math.round(distance / STEP_LENGTH))` */
  function Steps(distance: real): (n: nat)
    ensures distance >= 0.0 ==> n as real - 0.5 <= distance / StepLength < n as real + 0.5
    ensures distance / StepLength < 0.5 ==> n == 0
  {
    var r := Round(distance / StepLength);
    if r < 0 then 0 else r
  }

  /** `playDirectionSoundAndVibration` plays exactly when confirmed, loaded, the alarm silent and the turn left or right. */
  predicate DirectionCueDue(t: Tracker)
  {
    t.confirmed && !t.soundLoading && !t.alarmPlaying && t.turn.Some? && t.turn.value != Straight
  }

  function DirectionTick(t: Tracker): (r: StepResult)
    ensures r.t == t
    ensures |r.out| <= 1
    ensures r.out != [] <==> DirectionCueDue(t)
    ensures r.out != [] ==> r.out[0] == DirectionCue(t.turn.value) && t.turn.value in {Left, Right}
  {
    if DirectionCueDue(t) then StepResult(t, [DirectionCue(t.turn.value)]) else StepResult(t, [])
  }

  function AlarmTick(t: Tracker): (r: StepResult)
    ensures r.t == t
    ensures r.out == (if t.alarmPlaying then [AlarmCue] else [])
  {
    if t.alarmPlaying then StepResult(t, [AlarmCue]) else StepResult(t, [])
  }

  // ---------------------------------------------------------------------------
  // Guidance back to the route

  /**
   * The step and direction effect, corrected: with a location and a nearest point,
   * the steps to it and the turn towards it; without either, no steps and no turn.
   */
  function Aim(t: Tracker, env: Env): (r: Tracker)
    ensures r == t.(steps := r.steps, turn := r.turn)
    ensures r.steps.Some? <==> t.location.Some? && t.nearest.Some?
    ensures r.turn.Some? <==> r.steps.Some?
    ensures r.steps.Some? ==>
              && r.steps.value == Steps(env.distance(t.location.value, t.nearest.value))
              && r.turn.value == CalculateTurnDirection(t.heading, env.bearing(t.location.value, t.nearest.value), DefaultTolerance)
  {
    if t.location.Some? && t.nearest.Some? then
      var here := t.location.value;
      var target := t.nearest.value;
      t.(steps := Some(Steps(env.distance(here, target))),
         turn := Some(CalculateTurnDirection(t.heading, env.bearing(here, target), DefaultTolerance)))
    else t.(steps := None, turn := None)
  }

  /** As written: without a nearest point the effect does nothing, so the previous steps and turn stay. */
  function AimAsWritten(t: Tracker, env: Env): (r: Tracker)
    ensures t.location.Some? && t.nearest.Some? ==> r == Aim(t, env)
    ensures t.location.None? || t.nearest.None? ==> r == t
  {
    if t.location.Some? && t.nearest.Some? then Aim(t, env) else t
  }

  /** The nearest point on the usable route lines, as the library projects it. */
  function Target(location: LatLng, routes: seq<Option<RouteData.RouteData>>, nearestOn: NearestOnLine): (r: Option<LatLng>)
    ensures r.None? <==> NoCandidate(RouteLines(routes), |RouteLines(routes)|, location, nearestOn)
  {
    FindNearestPointOnRoutes(Some(location), Some(RouteLines(routes)), nearestOn)
  }

  /**
   * The nearest-point effect followed by the step and direction effect, while
   * confirmed: the target, the guide line from the walker to it, and the aim.
   */
  function Guide(t: Tracker, env: Env): (r: Tracker)
    requires t.location.Some?
    ensures r == t.(nearest := r.nearest, guideLine := r.guideLine, steps := r.steps, turn := r.turn)
    ensures r.nearest == Target(t.location.value, t.routes, env.nearestOn)
    ensures r.guideLine == (if r.nearest.Some? then [t.location.value, r.nearest.value] else [])
    ensures r.steps.Some? <==> r.nearest.Some?
    ensures r.turn.Some? <==> r.nearest.Some?
  {
    var target := Target(t.location.value, t.routes, env.nearestOn);
    var line := if target.Some? then [t.location.value, target.value] else [];
    Aim(t.(nearest := target, guideLine := line), env)
  }

  // ---------------------------------------------------------------------------
  // Transitions

  /**
   * Leaving the off-route state: the deviation effect clears the flag, the start
   * time, the path and the guidance and stops the cues; the confirmation effect
   * then cancels the timer and, if the excursion was confirmed, clears the
   * confirmation, hides the alert and reports `on-route`.
   */
  function Leave(t: Tracker, env: Env): (r: StepResult)
    ensures !r.t.offRoute && r.t.startTime.None? && r.t.path == [] && !r.t.confirmed && r.t.deadline.None?
    ensures r.t.nearest.None? && r.t.guideLine == [] && r.t.steps.None? && r.t.turn.None?
    ensures !r.t.alarmPlaying && !r.t.guidanceUi
    ensures r.out == (if t.confirmed && env.canNotify then [Notify(OnRoute)] else [])
    ensures !t.confirmed ==> r.t.alertVisible == t.alertVisible
  {
    var cleared := t.(offRoute := false, startTime := None, path := [], nearest := None, guideLine := [],
                      steps := None, turn := None, guidanceUi := false, alarmPlaying := false, deadline := None);
    if t.confirmed then
      StepResult(cleared.(confirmed := false, alertVisible := false),
                 if env.canNotify then [Notify(OnRoute)] else [])
    else StepResult(cleared, [])
  }

  /** A location or route update: the deviation effect and, while confirmed, the guidance effects. */
  function OnSample(t: Tracker, env: Env, location: Option<LatLng>, registering: bool,
                    routes: seq<Option<RouteData.RouteData>>, now: int): (r: StepResult)
    ensures r.t.location == location && r.t.routes == routes
    ensures r.t.offRoute <==> Observe(location, registering, routes, env.contains).Outside?
    ensures r.t.confirmed ==> t.confirmed
    ensures r.out != [] ==> t.offRoute && t.confirmed && !r.t.offRoute && r.out == [Notify(OnRoute)]
  {
    var t1 := t.(location := location, routes := routes);
    match Observe(location, registering, routes, env.contains)
    case Outside(p) =>
      if !t.offRoute then
        StepResult(t1.(offRoute := true, startTime := Some(now), path := [p],
                       deadline := if now != 0 then Some(now + ConfirmDelay) else None), [])
      else
        var t2 := t1.(path := t.path + [p]);
        StepResult(if t.confirmed then Guide(t2, env) else t2, [])
    case _ =>
      if t.offRoute then Leave(t1, env) else StepResult(t1, [])
  }

  /**
   * The confirmation timer. When it fires and the walker is still off route, the
   * excursion is confirmed: the alert shows, the alarm starts and plays its first
   * round at once, guidance begins, and then `off-route` is reported.
   */
  function OnTimer(t: Tracker, env: Env, now: int): (r: StepResult)
    ensures t.deadline.None? || now < t.deadline.value ==> r == StepResult(t, [])
    ensures t.deadline.Some? && now >= t.deadline.value && !t.offRoute ==> r == StepResult(t.(deadline := None), [])
    ensures t.deadline.Some? && now >= t.deadline.value && t.offRoute ==>
              && r.t.confirmed && r.t.alertVisible && r.t.guidanceUi && r.t.deadline.None?
              && r.t.alarmPlaying == (t.alarmPlaying || !t.soundLoading)
              && (AlarmCue in r.out <==> !t.alarmPlaying && !t.soundLoading)
              && (AlarmCue in r.out ==> r.out[0] == AlarmCue)
              && (Notify(OffRoute) in r.out <==> env.canNotify)
              && (env.canNotify ==> r.out[|r.out| - 1] == Notify(OffRoute))
    ensures forall o :: o in r.out ==> o == AlarmCue || o == Notify(OffRoute)
  {
    if t.deadline.None? || now < t.deadline.value then StepResult(t, [])
    else if !t.offRoute then StepResult(t.(deadline := None), [])
    else
      var starts := !t.alarmPlaying && !t.soundLoading;
      var t1 := t.(confirmed := true, alertVisible := true, guidanceUi := true, deadline := None,
                   alarmPlaying := StartAlarm(t.alarmPlaying, t.soundLoading));
      StepResult(if t1.location.Some? then Guide(t1, env) else t1,
                 (if starts then [AlarmCue] else []) + (if env.canNotify then [Notify(OffRoute)] else []))
  }

  /** `handleCloseOffRouteAlert`: hides the alert and stops the alarm, nothing else. */
  function Dismiss(t: Tracker): (r: Tracker)
    ensures r == t.(alertVisible := false, alarmPlaying := false)
    ensures r.offRoute == t.offRoute && r.confirmed == t.confirmed && r.path == t.path
  {
    t.(alertVisible := false, alarmPlaying := false)
  }

  /** A new heading re-aims the guidance while confirmed. */
  function OnHeading(t: Tracker, env: Env, heading: real): (r: Tracker)
    ensures r.heading == heading
    ensures !t.confirmed ==> r == t.(heading := heading)
  {
    var t1 := t.(heading := heading);
    if t1.confirmed then Aim(t1, env) else t1
  }

  datatype Event =
    | Sample(location: Option<LatLng>, registering: bool, routes: seq<Option<RouteData.RouteData>>, now: int)
    | TimerFired(now: int)
    | DismissAlert
    | HeadingChanged(heading: real)
    | SoundsLoaded
    | DirectionTicked
    | AlarmTicked

  /**
   * One event. Deviation and confirmation change only on a location sample or the
   * timer; the other events leave the excursion, its path and its timer alone.
   */
  function Step(t: Tracker, env: Env, e: Event): (r: StepResult)
    ensures !e.Sample? && !e.TimerFired? ==>
              && r.t.offRoute == t.offRoute && r.t.confirmed == t.confirmed
              && r.t.path == t.path && r.t.deadline == t.deadline
    ensures e.DismissAlert? ==> r.out == [] && !r.t.alertVisible && !r.t.alarmPlaying
    ensures e.HeadingChanged? ==> r.out == [] && r.t.heading == e.heading
    ensures e.SoundsLoaded? ==> r.out == [] && !r.t.soundLoading
    ensures forall o :: o in r.out && o.Notify? ==> e.Sample? || e.TimerFired?
  {
    match e
    case Sample(location, registering, routes, now) => OnSample(t, env, location, registering, routes, now)
    case TimerFired(now) => OnTimer(t, env, now)
    case DismissAlert => StepResult(Dismiss(t), [])
    case HeadingChanged(h) => StepResult(OnHeading(t, env, h), [])
    case SoundsLoaded => StepResult(t.(soundLoading := false), [])
    case DirectionTicked => DirectionTick(t)
    case AlarmTicked => AlarmTick(t)
  }

  // ---------------------------------------------------------------------------
  // The invariant

  /**
   * The lifecycle's invariant: off route exactly while there is a start time and a
   * path; the timer armed exactly while pending with a nonzero start, 5 seconds
   * after it; confirmation only while off route; alert, alarm and guidance only
   * while confirmed; steps and turn only towards a nearest point, which the guide
   * line joins to the walker.
   */
  predicate Valid(t: Tracker)
  {
    && (t.confirmed ==> t.offRoute)
    && (t.offRoute <==> t.startTime.Some?)
    && (t.offRoute <==> t.path != [])
    && (t.offRoute ==> t.location.Some?)
    && (t.deadline.Some? <==> t.offRoute && !t.confirmed && t.startTime.value != 0)
    && (t.deadline.Some? ==> t.deadline.value == t.startTime.value + ConfirmDelay)
    && (!t.confirmed ==> !t.alertVisible && !t.alarmPlaying && !t.guidanceUi)
    && (!t.confirmed ==> t.nearest.None? && t.steps.None? && t.turn.None?)
    && (t.steps.Some? <==> t.turn.Some?)
    && (t.steps.Some? ==> t.nearest.Some?)
    && (t.guideLine == if t.nearest.Some? then [t.location.value, t.nearest.value] else [])
  }

  lemma InitialValid()
    ensures Valid(Initial)
  {
  }

  lemma SampleValid(t: Tracker, env: Env, location: Option<LatLng>, registering: bool,
                    routes: seq<Option<RouteData.RouteData>>, now: int)
    requires Valid(t)
    ensures Valid(OnSample(t, env, location, registering, routes, now).t)
  {
    var t1 := t.(location := location, routes := routes);
    match Observe(location, registering, routes, env.contains)
    case Outside(p) =>
      if t.offRoute {
        var t2 := t1.(path := t.path + [p]);
        if t.confirmed {
          assert Valid(Guide(t2, env));
        } else {
          assert Valid(t2);
        }
      }
    case _ =>
      if t.offRoute {
        assert Valid(Leave(t1, env).t);
      }
  }

  lemma TimerValid(t: Tracker, env: Env, now: int)
    requires Valid(t)
    ensures Valid(OnTimer(t, env, now).t)
  {
  }

  lemma HeadingValid(t: Tracker, env: Env, heading: real)
    requires Valid(t)
    ensures Valid(OnHeading(t, env, heading))
  {
  }

  /** Every event keeps the invariant. */
  lemma StepValid(t: Tracker, env: Env, e: Event)
    requires Valid(t)
    ensures Valid(Step(t, env, e).t)
  {
    match e
    case Sample(location, registering, routes, now) => SampleValid(t, env, location, registering, routes, now);
    case TimerFired(now) => TimerValid(t, env, now);
    case HeadingChanged(h) => HeadingValid(t, env, h);
    case _ =>
  }

  // ---------------------------------------------------------------------------
  // Deviation and return

  /** An outside sample while on route starts an excursion at that point, with the timer armed for a nonzero start. */
  lemma OutsideStartsExcursion(t: Tracker, env: Env, location: Option<LatLng>, registering: bool,
                               routes: seq<Option<RouteData.RouteData>>, now: int)
    requires !t.offRoute
    requires Observe(location, registering, routes, env.contains).Outside?
    ensures var r := OnSample(t, env, location, registering, routes, now);
            && r.t.offRoute && r.t.startTime == Some(now) && r.t.path == [location.value]
            && r.t.confirmed == t.confirmed && r.out == []
            && (r.t.deadline.Some? <==> now != 0)
            && (now != 0 ==> r.t.deadline == Some(now + ConfirmDelay))
  {
  }

  /** Further outside samples extend the path and keep the start time, the timer and the confirmation. */
  lemma OutsideExtendsPath(t: Tracker, env: Env, location: Option<LatLng>, registering: bool,
                           routes: seq<Option<RouteData.RouteData>>, now: int)
    requires t.offRoute
    requires Observe(location, registering, routes, env.contains).Outside?
    ensures var r := OnSample(t, env, location, registering, routes, now);
            && r.t.offRoute && r.t.startTime == t.startTime && r.t.path == t.path + [location.value]
            && r.t.deadline == t.deadline && r.t.confirmed == t.confirmed && r.out == []
  {
  }

  /**
   * An inside sample, or a sample without usable geometry, ends an excursion and
   * clears all of its state; deviation is never kept without geometry.
   */
  lemma NotOutsideEndsExcursion(t: Tracker, env: Env, location: Option<LatLng>, registering: bool,
                                routes: seq<Option<RouteData.RouteData>>, now: int)
    requires Valid(t)
    requires !Observe(location, registering, routes, env.contains).Outside?
    ensures var r := OnSample(t, env, location, registering, routes, now);
            && !r.t.offRoute && r.t.startTime.None? && r.t.path == [] && !r.t.confirmed && r.t.deadline.None?
            && r.t.nearest.None? && r.t.guideLine == [] && r.t.steps.None? && r.t.turn.None?
            && (t.offRoute ==> !r.t.alarmPlaying && !r.t.guidanceUi)
            && r.out == (if t.confirmed && t.offRoute && env.canNotify then [Notify(OnRoute)] else [])
  {
    if !t.offRoute {
      assert !t.confirmed;
    }
  }

  // ---------------------------------------------------------------------------
  // Confirmation

  /** Only the confirmation timer confirms, and only once its 5 seconds have passed while off route. */
  lemma ConfirmedOnlyByTimer(t: Tracker, env: Env, e: Event)
    requires !t.confirmed && Step(t, env, e).t.confirmed
    ensures e.TimerFired? && t.offRoute && t.deadline.Some? && e.now >= t.deadline.value
  {
  }

  /**
   * When the timer fires on a pending excursion, it is confirmed: the alert shows,
   * the alarm starts unless the sounds are still loading and then plays its first
   * round at once, and `off-route` is reported after it.
   */
  lemma TimerConfirms(t: Tracker, env: Env, now: int)
    requires Valid(t) && t.deadline.Some? && now >= t.deadline.value
    ensures var r := OnTimer(t, env, now);
            && r.t.confirmed && r.t.alertVisible && r.t.guidanceUi && r.t.deadline.None?
            && r.t.alarmPlaying == !t.soundLoading
            && r.out == (if t.soundLoading then [] else [AlarmCue]) + (if env.canNotify then [Notify(OffRoute)] else [])
            && r.t.path == t.path && r.t.startTime == t.startTime
  {
  }

  /** Returning before confirmation cancels the timer and reports nothing. */
  lemma ReturnBeforeConfirmation(t: Tracker, env: Env, location: Option<LatLng>, registering: bool,
                                 routes: seq<Option<RouteData.RouteData>>, now: int)
    requires Valid(t) && t.offRoute && !t.confirmed
    requires !Observe(location, registering, routes, env.contains).Outside?
    ensures var r := OnSample(t, env, location, registering, routes, now);
            r.t.deadline.None? && r.out == [] && !r.t.alertVisible
  {
  }

  // ---------------------------------------------------------------------------
  // Statuses sent for the caregiver

  /** The statuses among the outputs, in order. */
  function Notices(out: seq<Output>): (ns: seq<RouteStatus>)
    ensures |ns| <= |out|
  {
    if out == [] then []
    else (if out[0].Notify? then [out[0].status] else []) + Notices(out[1..])
  }

  lemma {:induction false} NoticesAppend(a: seq<Output>, b: seq<Output>)
    ensures Notices(a + b) == Notices(a) + Notices(b)
  {
    if a != [] {
      assert (a + b)[1..] == a[1..] + b;
      NoticesAppend(a[1..], b);
    } else {
      assert a + b == b;
    }
  }

  /** Each event reports `off-route` exactly when it confirms, and `on-route` exactly when it ends a confirmed excursion. */
  lemma StepNotices(t: Tracker, env: Env, e: Event)
    requires Valid(t) && env.canNotify
    ensures var r := Step(t, env, e);
            Notices(r.out) == (if !t.confirmed && r.t.confirmed then [OffRoute]
                               else if t.confirmed && !r.t.confirmed then [OnRoute]
                               else [])
  {
    match e
    case Sample(location, registering, routes, now) => SampleNotices(t, env, location, registering, routes, now);
    case TimerFired(now) => TimerNotices(t, env, now);
    case DirectionTicked =>
      assert Notices(DirectionTick(t).out) == [];
    case AlarmTicked =>
      assert Notices(AlarmTick(t).out) == [];
    case _ =>
  }

  lemma SampleNotices(t: Tracker, env: Env, location: Option<LatLng>, registering: bool,
                      routes: seq<Option<RouteData.RouteData>>, now: int)
    requires Valid(t) && env.canNotify
    ensures var r := OnSample(t, env, location, registering, routes, now);
            Notices(r.out) == (if t.confirmed && !r.t.confirmed then [OnRoute] else [])
            && (!t.confirmed ==> !r.t.confirmed)
  {
    var t1 := t.(location := location, routes := routes);
    match Observe(location, registering, routes, env.contains)
    case Outside(p) =>
    case _ =>
      if t.offRoute {
        assert Notices([Notify(OnRoute)]) == [OnRoute];
      }
  }

  lemma TimerNotices(t: Tracker, env: Env, now: int)
    requires Valid(t) && env.canNotify
    ensures var r := OnTimer(t, env, now);
            Notices(r.out) == (if !t.confirmed && r.t.confirmed then [OffRoute] else [])
            && (t.confirmed ==> r.t.confirmed)
  {
    assert Notices([Notify(OffRoute)]) == [OffRoute];
    assert Notices([AlarmCue]) == [];
    assert Notices([AlarmCue, Notify(OffRoute)]) == [OffRoute] by {
      assert [AlarmCue, Notify(OffRoute)][1..] == [Notify(OffRoute)];
    }
  }

  /** The events' outputs, and the state they leave. */
  function Run(t: Tracker, env: Env, events: seq<Event>): StepResult
    decreases |events|
  {
    if events == [] then StepResult(t, [])
    else
      var first := Step(t, env, events[0]);
      var rest := Run(first.t, env, events[1..]);
      StepResult(rest.t, first.out + rest.out)
  }

  /** Statuses alternate, starting with `off-route` from an unconfirmed state. */
  predicate Alternating(ns: seq<RouteStatus>, confirmed: bool)
    decreases |ns|
  {
    ns == [] || (ns[0] == (if confirmed then OnRoute else OffRoute) && Alternating(ns[1..], !confirmed))
  }

  /** After the statuses `ns`, starting from `confirmed`, the last one reported (or the start) says off route. */
  function LastSaysOffRoute(ns: seq<RouteStatus>, confirmed: bool): bool
  {
    if ns == [] then confirmed else ns[|ns| - 1] == OffRoute
  }

  lemma {:induction false} AlternatingAppend(a: seq<RouteStatus>, b: seq<RouteStatus>, c: bool)
    requires Alternating(a, c) && Alternating(b, LastSaysOffRoute(a, c))
    ensures Alternating(a + b, c)
    ensures LastSaysOffRoute(a + b, c) == LastSaysOffRoute(b, LastSaysOffRoute(a, c))
    decreases |a|
  {
    if a != [] {
      assert (a + b)[1..] == a[1..] + b;
      AlternatingAppend(a[1..], b, !c);
      if a[1..] == [] {
        assert LastSaysOffRoute(a, c) == !c;
      }
    } else {
      assert a + b == b;
    }
  }

  /**
   * Over any sequence of events the reported statuses alternate, each `off-route`
   * paired with a later `on-route`, and the last one reported says off route exactly
   * when the excursion is confirmed at the end.
   */
  lemma {:induction false} StatusesTrackConfirmation(t: Tracker, env: Env, events: seq<Event>)
    requires Valid(t) && env.canNotify
    ensures var r := Run(t, env, events);
            Alternating(Notices(r.out), t.confirmed) && LastSaysOffRoute(Notices(r.out), t.confirmed) == r.t.confirmed
    decreases |events|
  {
    if events != [] {
      var first := Step(t, env, events[0]);
      StepNotices(t, env, events[0]);
      StepValid(t, env, events[0]);
      StatusesTrackConfirmation(first.t, env, events[1..]);
      var rest := Run(first.t, env, events[1..]);
      NoticesAppend(first.out, rest.out);
      assert LastSaysOffRoute(Notices(first.out), t.confirmed) == first.t.confirmed;
      AlternatingAppend(Notices(first.out), Notices(rest.out), t.confirmed);
    }
  }

  /**
   * Combined with the caregiver's decoder: after any events from the opening screen,
   * the caregiver sees the off-route banner for the last reported status exactly when
   * the walker's excursion is confirmed.
   */
  lemma CaregiverBannerMatches(env: Env, events: seq<Event>, serverTime: real, lastLocation: Value)
    requires env.canNotify && serverTime != 0.0
    ensures var r := Run(Initial, env, events);
            var ns := Notices(r.out);
            (ns == [] ==> !r.t.confirmed)
            && (ns != [] ==> (BannerShown(DecodeAlert(EncodeAlert(ns[|ns| - 1], serverTime, lastLocation))) <==> r.t.confirmed))
  {
    InitialValid();
    StatusesTrackConfirmation(Initial, env, events);
    var ns := Notices(Run(Initial, env, events).out);
    if ns != [] {
      AlertRoundTrip(ns[|ns| - 1], serverTime, lastLocation);
    }
  }

  // ---------------------------------------------------------------------------
  // Stale guidance

  /** The guidance effects as written, where a missing nearest point leaves the previous steps and turn. */
  function GuideAsWritten(t: Tracker, env: Env): (r: Tracker)
    requires t.location.Some?
    ensures r.nearest == Target(t.location.value, t.routes, env.nearestOn)
    ensures r.nearest.None? ==> r.steps == t.steps && r.turn == t.turn && r.guideLine == []
    ensures r.nearest.Some? ==> r == Guide(t, env)
  {
    var target := Target(t.location.value, t.routes, env.nearestOn);
    var line := if target.Some? then [t.location.value, target.value] else [];
    AimAsWritten(t.(nearest := target, guideLine := line), env)
  }

  /**
   * When the projection onto every route fails, the code as written keeps announcing
   * the previous turn with no target and no guide line; the corrected effect
   * announces nothing.
   */
  lemma StaleGuidanceExample(here: LatLng, before: LatLng, env: Env)
    requires forall line, p :: env.nearestOn(line, p).None?
    ensures var t := Initial.(offRoute := true, startTime := Some(1), path := [here], confirmed := true,
                               soundLoading := false, location := Some(here), nearest := Some(before),
                               guideLine := [here, before], steps := Some(3), turn := Some(Left));
            var stale := GuideAsWritten(t, env);
            var fixed := Guide(t, env);
            && stale.nearest.None? && stale.guideLine == [] && stale.steps == Some(3)
            && DirectionTick(stale).out == [DirectionCue(Left)]
            && fixed.steps.None? && DirectionTick(fixed).out == []
  {
    var t := Initial.(offRoute := true, startTime := Some(1), path := [here], confirmed := true,
                      soundLoading := false, location := Some(here), nearest := Some(before),
                      guideLine := [here, before], steps := Some(3), turn := Some(Left));
    assert Target(here, t.routes, env.nearestOn).None?;
  }
}

=== FILE: point_records.dfy ===
/**
 * Decoding of stored route points, shared by the buffer builder and the client:
 * a point record is an object whose `latitude` and `longitude` are numbers, and
 * records are ordered by `timestamp`, a missing or falsy timestamp counting as 0.
 */
module PointRecords {
  import opened Base
  import opened Json
  import opened Sorting

  /** `p && typeof p.latitude === 'number' && typeof p.longitude === 'number'` */
  predicate HasLatLng(v: Value)
  {
    IsNum(Get(v, "latitude")) && IsNum(Get(v, "longitude"))
  }

  function LatLngOf(v: Value): (p: LatLng)
    requires HasLatLng(v)
    ensures Get(v, "latitude") == Some(Num(p.latitude))
    ensures Get(v, "longitude") == Some(Num(p.longitude))
  {
    LatLng(Get(v, "latitude").value.n, Get(v, "longitude").value.n)
  }

  /**
   * The sort key `p?.timestamp || 0`: a number is used as is, `true` coerces to 1,
   * and a missing, null, false or zero timestamp counts as 0.
   */
  function TimestampKey(v: Value): (k: real)
    ensures IsNum(Get(v, "timestamp")) ==> k == Get(v, "timestamp").value.n
    ensures !TruthyOpt(Get(v, "timestamp")) ==> k == 0.0
  {
    match Get(v, "timestamp")
    case Some(Num(n)) => n
    case Some(Bool(true)) => 1.0
    case _ => 0.0
  }

  /** `.filter(hasLatLng)`: keeps the decodable records in their order. */
  function KeepLatLng(vs: seq<Value>): (r: seq<Value>)
    ensures forall i :: 0 <= i < |r| ==> HasLatLng(r[i])
  {
    Filter(vs, HasLatLng)
  }

  /** The decodable records in time order: what filtering and then sorting yields. */
  function Chronological(vs: seq<Value>): (r: seq<Value>)
    ensures forall i :: 0 <= i < |r| ==> HasLatLng(r[i])
    ensures SortedBy(r, TimestampKey)
    ensures multiset(r) == multiset(KeepLatLng(vs))
  {
    var kept := KeepLatLng(vs);
    var r := SortBy(kept, TimestampKey);
    SortPermutes(kept, TimestampKey);
    forall i | 0 <= i < |r| ensures HasLatLng(r[i]) {
      assert r[i] in multiset(r);
      assert r[i] in kept;
    }
    r
  }

  /** `.map(p => ({latitude: p.latitude, longitude: p.longitude}))` */
  function ToLatLngs(vs: seq<Value>): (r: seq<LatLng>)
    requires forall i :: 0 <= i < |vs| ==> HasLatLng(vs[i])
    ensures |r| == |vs| && forall i :: 0 <= i < |vs| ==> r[i] == LatLngOf(vs[i])
  {
    seq(|vs|, i requires 0 <= i < |vs| => LatLngOf(vs[i]))
  }

  /** `.map(p => [p.longitude, p.latitude])` */
  function ToPositions(vs: seq<Value>): (r: seq<Position>)
    requires forall i :: 0 <= i < |vs| ==> HasLatLng(vs[i])
    ensures |r| == |vs| && forall i :: 0 <= i < |vs| ==> r[i] == ToPosition(LatLngOf(vs[i]))
  {
    seq(|vs|, i requires 0 <= i < |vs| => ToPosition(LatLngOf(vs[i])))
  }

  /**
   * Filtering commutes with the stable sort: dropping undecodable records and then
   * sorting gives the same order as sorting and then dropping them.
   */
  lemma KeepSortCommute(vs: seq<Value>)
    ensures KeepLatLng(SortBy(vs, TimestampKey)) == Chronological(vs)
  {
    FilterSortCommute(vs, HasLatLng, TimestampKey);
  }
}

=== FILE: polyline.dfy ===
/**
 * Splitting a time-ordered location history into the polylines drawn on the
 * caregiver's map: a gap longer than the limit ends a polyline, and a polyline
 * needs at least two points to be drawn.
 */
module Polyline {
  import opened Base

  /** One stored location sample. */
  datatype LocationRecord = LocationRecord(latitude: real, longitude: real, heading: real, timestamp: real)

  function Point(r: LocationRecord): LatLng
  {
    LatLng(r.latitude, r.longitude)
  }

  function Coords(rs: seq<LocationRecord>): (ps: seq<LatLng>)
    ensures |ps| == |rs| && forall i :: 0 <= i < |rs| ==> ps[i] == Point(rs[i])
  {
    seq(|rs|, i requires 0 <= i < |rs| => Point(rs[i]))
  }

  /** `maxGapMinutes * 60 * 1000` */
  function GapLimit(maxGapMinutes: real): real
  {
    maxGapMinutes * 60.0 * 1000.0
  }

  /** Record `i` continues the polyline of record `i - 1`: their timestamps are at most `limit` apart. */
  predicate Joined(recs: seq<LocationRecord>, limit: real, i: nat)
    requires 0 < i < |recs|
  {
    recs[i].timestamp - recs[i - 1].timestamp <= limit
  }

  /** Every record strictly after `a` and before `b` is joined to its predecessor. */
  predicate JoinedWithin(recs: seq<LocationRecord>, limit: real, a: nat, b: nat)
    requires a < b <= |recs|
  {
    forall i :: a < i < b ==> Joined(recs, limit, i)
  }

  // ---------------------------------------------------------------------------
  // Reference definition: maximal runs of joined records

  /** The exclusive end of the maximal run that starts at `s`. */
  function RunEnd(recs: seq<LocationRecord>, limit: real, s: nat): (e: nat)
    requires s < |recs|
    ensures s < e <= |recs|
    ensures JoinedWithin(recs, limit, s, e)
    ensures e < |recs| ==> !Joined(recs, limit, e)
    decreases |recs| - s
  {
    if s + 1 < |recs| && Joined(recs, limit, s + 1) then
      RunEnd(recs, limit, s + 1)
    else s + 1
  }

  /** The index ranges `[a, b)` of the maximal runs from `s` on that hold at least 2 records. */
  function Ranges(recs: seq<LocationRecord>, limit: real, s: nat): (rs: seq<(nat, nat)>)
    requires s <= |recs|
    ensures forall k :: 0 <= k < |rs| ==> s <= rs[k].0 && rs[k].0 + 2 <= rs[k].1 <= |recs|
    decreases |recs| - s
  {
    if s == |recs| then []
    else
      var e := RunEnd(recs, limit, s);
      var rest := Ranges(recs, limit, e);
      if e - s >= 2 then [(s, e)] + rest else rest
  }

  function Segments(recs: seq<LocationRecord>, ranges: seq<(nat, nat)>): (segs: seq<seq<LatLng>>)
    requires forall k :: 0 <= k < |ranges| ==> ranges[k].0 <= ranges[k].1 <= |recs|
    ensures |segs| == |ranges|
    ensures forall k :: 0 <= k < |ranges| ==> segs[k] == Coords(recs[ranges[k].0..ranges[k].1])
  {
    seq(|ranges|, k requires 0 <= k < |ranges| => Coords(recs[ranges[k].0..ranges[k].1]))
  }

  /** The polylines the reference definition draws from record `s` on. */
  function RunsFrom(recs: seq<LocationRecord>, limit: real, s: nat): seq<seq<LatLng>>
    requires s <= |recs|
  {
    Segments(recs, Ranges(recs, limit, s))
  }

  /** The polylines the reference definition draws for at least two records; each has at least two points. */
  function Runs(recs: seq<LocationRecord>, limit: real): (segs: seq<seq<LatLng>>)
    ensures forall k :: 0 <= k < |segs| ==> |segs[k]| >= 2
  {
    RunsFrom(recs, limit, 0)
  }

  // ---------------------------------------------------------------------------
  // The loop

  /**
   * `splitPolylineByTimeGap`: no records give no polylines, one record gives a
   * single one-point polyline, and otherwise the maximal joined runs of at least
   * two records, in order.
   */
  method SplitPolylineByTimeGap(records: seq<LocationRecord>, maxGapMinutes: real) returns (segments: seq<seq<LatLng>>)
    ensures |records| == 0 ==> segments == []
    ensures |records| == 1 ==> segments == [[Point(records[0])]]
    ensures |records| >= 2 ==> segments == Runs(records, GapLimit(maxGapMinutes))
  {
    if |records| < 2 {
      return if |records| > 0 then [[Point(records[0])]] else [];
    }
    segments := SplitRuns(records, GapLimit(maxGapMinutes));
  }

  /** The loop over records 1 onwards, closing the current polyline at every over-limit gap. */
  method SplitRuns(records: seq<LocationRecord>, limit: real) returns (segments: seq<seq<LatLng>>)
    requires |records| >= 2
    ensures segments == RunsFrom(records, limit, 0)
  {
    segments := [];
    StartRun(records, limit, 0);
    var current := [Point(records[0])];
    var start := 0;
    var i := 1;
    while i < |records|
      invariant 0 <= start < i <= |records|
      invariant current == Coords(records[start..i])
      invariant JoinedWithin(records, limit, start, i)
      invariant RunsFrom(records, limit, 0) == segments + RunsFrom(records, limit, start)
      decreases |records| - i
    {
      segments, current, start := SplitStep(records, limit, segments, current, start, i);
      i := i + 1;
    }
    segments := SplitFinish(records, limit, segments, current, start);
  }

  /** After the loop: the last polyline is kept if it holds more than one point. */
  method SplitFinish(records: seq<LocationRecord>, limit: real, segments: seq<seq<LatLng>>, current: seq<LatLng>,
                     start: nat)
    returns (all: seq<seq<LatLng>>)
    requires start < |records|
    requires current == Coords(records[start..|records|]) && JoinedWithin(records, limit, start, |records|)
    requires RunsFrom(records, limit, 0) == segments + RunsFrom(records, limit, start)
    ensures all == RunsFrom(records, limit, 0)
  {
    FinalRun(records, limit, segments, start);
    all := segments;
    if |current| > 1 {
      all := segments + [current];
    }
  }

  /**
   * One iteration at record `i`: a joined record extends the current polyline; an
   * over-limit gap closes it (kept if it holds more than one point) and starts a
   * new one at record `i`.
   */
  method SplitStep(records: seq<LocationRecord>, limit: real, segments: seq<seq<LatLng>>, current: seq<LatLng>,
                   start: nat, i: nat)
    returns (segments': seq<seq<LatLng>>, current': seq<LatLng>, start': nat)
    requires start < i < |records|
    requires current == Coords(records[start..i]) && JoinedWithin(records, limit, start, i)
    requires RunsFrom(records, limit, 0) == segments + RunsFrom(records, limit, start)
    ensures start' <= i
    ensures current' == Coords(records[start'..i + 1]) && JoinedWithin(records, limit, start', i + 1)
    ensures RunsFrom(records, limit, 0) == segments' + RunsFrom(records, limit, start')
  {
    var timeDifference := records[i].timestamp - records[i - 1].timestamp;
    if timeDifference <= limit {
      ExtendRun(records, limit, start, i);
      segments', current', start' := segments, current + [Point(records[i])], start;
    } else {
      segments' := segments;
      if |current| > 1 {
        CloseDrawn(records, limit, segments, start, i);
        segments' := segments + [current];
      } else {
        CloseDropped(records, limit, segments, start, i);
      }
      StartRun(records, limit, i);
      current', start' := [Point(records[i])], i;
    }
  }

  /** A break at `i` starts a new run holding record `i` alone. */
  lemma StartRun(recs: seq<LocationRecord>, limit: real, i: nat)
    requires i < |recs|
    ensures Coords(recs[i..i + 1]) == [Point(recs[i])]
    ensures JoinedWithin(recs, limit, i, i + 1)
  {
    assert recs[i..i + 1] == [recs[i]];
  }

  /** A joined record extends the current run. */
  lemma ExtendRun(recs: seq<LocationRecord>, limit: real, start: nat, i: nat)
    requires start < i < |recs|
    requires JoinedWithin(recs, limit, start, i) && Joined(recs, limit, i)
    ensures JoinedWithin(recs, limit, start, i + 1)
    ensures Coords(recs[start..i + 1]) == Coords(recs[start..i]) + [Point(recs[i])]
  {
    CoordsSnoc(recs, start, i);
  }

  /** The run still open at the end of the records is the last one drawn. */
  lemma FinalRun(recs: seq<LocationRecord>, limit: real, segments: seq<seq<LatLng>>, start: nat)
    requires start < |recs|
    requires JoinedWithin(recs, limit, start, |recs|)
    requires RunsFrom(recs, limit, 0) == segments + RunsFrom(recs, limit, start)
    ensures RunsFrom(recs, limit, 0)
         == if |recs| - start >= 2 then segments + [Coords(recs[start..|recs|])] else segments
  {
    CloseRun(recs, limit, start, |recs|);
    assert RunsFrom(recs, limit, |recs|) == [];
    if |recs| - start >= 2 {
      assert [Coords(recs[start..|recs|])] + [] == [Coords(recs[start..|recs|])];
    } else {
      assert segments + ([] + []) == segments;
    }
  }

  lemma CoordsSnoc(recs: seq<LocationRecord>, start: nat, i: nat)
    requires start <= i < |recs|
    ensures Coords(recs[start..i + 1]) == Coords(recs[start..i]) + [Point(recs[i])]
  {
    assert recs[start..i + 1] == recs[start..i] + [recs[i]];
  }

  /** Closing a run of 2 or more records at a break draws it. */
  lemma CloseDrawn(recs: seq<LocationRecord>, limit: real, segments: seq<seq<LatLng>>, start: nat, i: nat)
    requires start + 2 <= i < |recs|
    requires JoinedWithin(recs, limit, start, i) && !Joined(recs, limit, i)
    requires RunsFrom(recs, limit, 0) == segments + RunsFrom(recs, limit, start)
    ensures RunsFrom(recs, limit, 0) == (segments + [Coords(recs[start..i])]) + RunsFrom(recs, limit, i)
  {
    CloseRun(recs, limit, start, i);
    assert segments + ([Coords(recs[start..i])] + RunsFrom(recs, limit, i))
        == (segments + [Coords(recs[start..i])]) + RunsFrom(recs, limit, i);
  }

  /** Closing a run of one record at a break drops it. */
  lemma CloseDropped(recs: seq<LocationRecord>, limit: real, segments: seq<seq<LatLng>>, start: nat, i: nat)
    requires start < i < |recs| && i < start + 2
    requires JoinedWithin(recs, limit, start, i) && !Joined(recs, limit, i)
    requires RunsFrom(recs, limit, 0) == segments + RunsFrom(recs, limit, start)
    ensures RunsFrom(recs, limit, 0) == segments + RunsFrom(recs, limit, i)
  {
    CloseRun(recs, limit, start, i);
    assert [] + RunsFrom(recs, limit, i) == RunsFrom(recs, limit, i);
  }

  /** The run from `start` closes at a break (or the end) at `i`: it is drawn if it holds at least 2 records. */
  lemma CloseRun(recs: seq<LocationRecord>, limit: real, start: nat, i: nat)
    requires start < i <= |recs|
    requires JoinedWithin(recs, limit, start, i)
    requires i < |recs| ==> !Joined(recs, limit, i)
    ensures RunsFrom(recs, limit, start)
         == (if i - start >= 2 then [Coords(recs[start..i])] else []) + RunsFrom(recs, limit, i)
  {
    RunEndAt(recs, limit, start, i);
    StepRanges(recs, limit, start);
  }

  /** A run that is joined up to `i` and broken at `i` (or ends there) ends at `i`. */
  lemma {:induction false} RunEndAt(recs: seq<LocationRecord>, limit: real, s: nat, i: nat)
    requires s < i <= |recs|
    requires JoinedWithin(recs, limit, s, i)
    requires i < |recs| ==> !Joined(recs, limit, i)
    ensures RunEnd(recs, limit, s) == i
    decreases i - s
  {
    if s + 1 < i {
      RunEndAt(recs, limit, s + 1, i);
    }
  }

  /** One step of the reference: the run from `s`, then the rest. */
  lemma StepRanges(recs: seq<LocationRecord>, limit: real, s: nat)
    requires s < |recs|
    ensures RunsFrom(recs, limit, s)
         == (if RunEnd(recs, limit, s) - s >= 2 then [Coords(recs[s..RunEnd(recs, limit, s)])] else [])
            + RunsFrom(recs, limit, RunEnd(recs, limit, s))
  {
    var e := RunEnd(recs, limit, s);
    var rest := Ranges(recs, limit, e);
    if e - s >= 2 {
      assert Ranges(recs, limit, s) == [(s, e)] + rest;
      var lhs := Segments(recs, [(s, e)] + rest);
      var rhs := [Coords(recs[s..e])] + Segments(recs, rest);
      assert |lhs| == |rhs|;
      forall k | 0 <= k < |lhs| ensures lhs[k] == rhs[k] {
        if k > 0 {
          assert ([(s, e)] + rest)[k] == rest[k - 1];
        }
      }
    } else {
      assert Ranges(recs, limit, s) == rest;
    }
  }

  // ---------------------------------------------------------------------------
  // Properties of the reference definition

  /** Ranges lie within the records, are joined inside, and follow each other in index order. */
  predicate WellOrdered(recs: seq<LocationRecord>, limit: real, rs: seq<(nat, nat)>)
  {
    && (forall k :: 0 <= k < |rs| ==> rs[k].0 < rs[k].1 <= |recs|)
    && (forall k :: 0 <= k < |rs| ==> rs[k].0 < rs[k].1 <= |recs| && JoinedWithin(recs, limit, rs[k].0, rs[k].1))
    && (forall k :: 0 <= k < |rs| - 1 ==> rs[k].1 <= rs[k + 1].0)
  }

  lemma {:induction false} RangesJoined(recs: seq<LocationRecord>, limit: real, s: nat)
    requires s <= |recs|
    ensures WellOrdered(recs, limit, Ranges(recs, limit, s))
    decreases |recs| - s
  {
    if s < |recs| {
      var e := RunEnd(recs, limit, s);
      var rest := Ranges(recs, limit, e);
      RangesJoined(recs, limit, e);
      if e - s >= 2 {
        var rs := [(s, e)] + rest;
        assert Ranges(recs, limit, s) == rs;
        ConsRange(recs, limit, s, e, rest);
      }
    }
  }

  lemma ConsRange(recs: seq<LocationRecord>, limit: real, s: nat, e: nat, rest: seq<(nat, nat)>)
    requires s < e <= |recs| && JoinedWithin(recs, limit, s, e)
    requires WellOrdered(recs, limit, rest)
    requires forall k :: 0 <= k < |rest| ==> e <= rest[k].0
    ensures WellOrdered(recs, limit, [(s, e)] + rest)
  {
    var rs := [(s, e)] + rest;
    assert rs[0] == (s, e);
    assert forall k :: 1 <= k < |rs| ==> rs[k] == rest[k - 1];
  }

  /** Record `i` is drawn, i.e. lies in some range. */
  ghost predicate Covered(rs: seq<(nat, nat)>, i: nat)
  {
    exists k :: 0 <= k < |rs| && rs[k].0 <= i < rs[k].1
  }

  /**
   * Exactly the lone records are dropped: a record is drawn if and only if it is
   * joined to its predecessor or its successor is joined to it.
   */
  lemma {:induction false} Coverage(recs: seq<LocationRecord>, limit: real, s: nat, i: nat)
    requires s <= i < |recs|
    requires s > 0 ==> !Joined(recs, limit, s)
    ensures Covered(Ranges(recs, limit, s), i)
        <==> (i > 0 && Joined(recs, limit, i)) || (i + 1 < |recs| && Joined(recs, limit, i + 1))
    decreases |recs| - s
  {
    var e := RunEnd(recs, limit, s);
    var rest := Ranges(recs, limit, e);
    var rs := Ranges(recs, limit, s);
    assert rs == if e - s >= 2 then [(s, e)] + rest else rest;
    if i < e {
      assert !Covered(rest, i);
      if e - s >= 2 {
        assert rs[0] == (s, e);
      } else {
        assert i == s;
      }
    } else {
      Coverage(recs, limit, e, i);
      if e - s >= 2 {
        CoveredCons((s, e), rest, i);
      }
    }
  }

  /** A range that does not hold `i` does not change whether `i` is covered. */
  lemma CoveredCons(r: (nat, nat), rest: seq<(nat, nat)>, i: nat)
    requires !(r.0 <= i < r.1)
    ensures Covered([r] + rest, i) <==> Covered(rest, i)
  {
    var rs := [r] + rest;
    if Covered(rs, i) {
      var k :| 0 <= k < |rs| && rs[k].0 <= i < rs[k].1;
      assert k > 0 && rs[k] == rest[k - 1];
    }
    if Covered(rest, i) {
      var k :| 0 <= k < |rest| && rest[k].0 <= i < rest[k].1;
      assert rs[k + 1] == rest[k];
    }
  }

  /** A record with a gap on both sides is never drawn. */
  lemma LonePointDropped(recs: seq<LocationRecord>, limit: real, i: nat)
    requires 0 < i < |recs| && !Joined(recs, limit, i)
    requires i + 1 < |recs| ==> !Joined(recs, limit, i + 1)
    ensures !Covered(Ranges(recs, limit, 0), i)
  {
    Coverage(recs, limit, 0, i);
  }

  /** Consecutive points of a drawn polyline are consecutive records at most `limit` apart. */
  lemma AdjacentJoined(recs: seq<LocationRecord>, limit: real, k: nat, j: nat)
    requires k < |Runs(recs, limit)| && 0 < j < |Runs(recs, limit)[k]|
    ensures exists i :: 0 < i < |recs| && Joined(recs, limit, i)
                        && Runs(recs, limit)[k][j - 1] == Point(recs[i - 1])
                        && Runs(recs, limit)[k][j] == Point(recs[i])
  {
    var rs := Ranges(recs, limit, 0);
    RangesJoined(recs, limit, 0);
    var i := rs[k].0 + j;
    assert JoinedWithin(recs, limit, rs[k].0, rs[k].1);
    assert rs[k].0 < i < rs[k].1;
    assert Joined(recs, limit, i);
  }

  /** Without an over-limit gap, all records form one polyline. */
  lemma NoGapOneSegment(recs: seq<LocationRecord>, limit: real)
    requires |recs| >= 2 && JoinedWithin(recs, limit, 0, |recs|)
    ensures Runs(recs, limit) == [Coords(recs)]
  {
    RunEndAt(recs, limit, 0, |recs|);
    StepRanges(recs, limit, 0);
    assert RunsFrom(recs, limit, |recs|) == [];
    assert recs[0..|recs|] == recs;
  }

  function Flatten<T>(ss: seq<seq<T>>): seq<T>
  {
    if ss == [] then [] else ss[0] + Flatten(ss[1..])
  }

  lemma {:induction false} FlattenAppend<T>(a: seq<seq<T>>, b: seq<seq<T>>)
    ensures Flatten(a + b) == Flatten(a) + Flatten(b)
  {
    if a != [] {
      assert (a + b)[1..] == a[1..] + b;
      FlattenAppend(a[1..], b);
    } else {
      assert a + b == b;
    }
  }

  /** `xs` is `ys` with some elements left out. */
  predicate IsSubsequence<T(==)>(xs: seq<T>, ys: seq<T>)
    decreases |ys|
  {
    if xs == [] then true
    else if ys == [] then false
    else (xs[0] == ys[0] && IsSubsequence(xs[1..], ys[1..])) || IsSubsequence(xs, ys[1..])
  }

  lemma {:induction false} SubsequenceSkip<T>(p: seq<T>, xs: seq<T>, ys: seq<T>)
    requires IsSubsequence(xs, ys)
    ensures IsSubsequence(xs, p + ys)
  {
    if p != [] && xs != [] {
      SubsequenceSkip(p[1..], xs, ys);
      assert (p + ys)[1..] == p[1..] + ys;
    } else if p == [] {
      assert p + ys == ys;
    }
  }

  lemma {:induction false} SubsequenceKeep<T>(p: seq<T>, xs: seq<T>, ys: seq<T>)
    requires IsSubsequence(xs, ys)
    ensures IsSubsequence(p + xs, p + ys)
  {
    if p != [] {
      SubsequenceKeep(p[1..], xs, ys);
      assert (p + xs)[1..] == p[1..] + xs;
      assert (p + ys)[1..] == p[1..] + ys;
      assert (p + xs)[0] == (p + ys)[0];
    } else {
      assert p + xs == xs && p + ys == ys;
    }
  }

  /** The drawn points, read in order, are the input points with some left out. */
  lemma {:induction false} RunsSubsequence(recs: seq<LocationRecord>, limit: real, s: nat)
    requires s <= |recs|
    ensures IsSubsequence(Flatten(RunsFrom(recs, limit, s)), Coords(recs[s..]))
    decreases |recs| - s
  {
    if s == |recs| {
      assert RunsFrom(recs, limit, s) == [];
    } else {
      var e := RunEnd(recs, limit, s);
      var rest := RunsFrom(recs, limit, e);
      RunsSubsequence(recs, limit, e);
      StepRanges(recs, limit, s);
      CoordsSplit(recs, s, e);
      if e - s >= 2 {
        FlattenCons(Coords(recs[s..e]), rest);
        SubsequenceKeep(Coords(recs[s..e]), Flatten(rest), Coords(recs[e..]));
      } else {
        assert RunsFrom(recs, limit, s) == [] + rest == rest;
        SubsequenceSkip(Coords(recs[s..e]), Flatten(rest), Coords(recs[e..]));
      }
    }
  }

  lemma CoordsSplit(recs: seq<LocationRecord>, s: nat, e: nat)
    requires s <= e <= |recs|
    ensures Coords(recs[s..]) == Coords(recs[s..e]) + Coords(recs[e..])
  {
    assert recs[s..] == recs[s..e] + recs[e..];
  }

  lemma FlattenCons<T>(x: seq<T>, rest: seq<seq<T>>)
    ensures Flatten([x] + rest) == x + Flatten(rest)
  {
    assert ([x] + rest)[1..] == rest;
  }
}

=== FILE: route_alerts.dfy ===
/**
 * The off-route status the senior's client publishes and the caregiver's map
 * decodes: a status string and a timestamp under the senior's alert node.
 */
module RouteAlerts {
  import opened Base
  import opened Json

  /** The two statuses the senior's client publishes. */
  datatype RouteStatus = OffRoute | OnRoute

  function StatusText(s: RouteStatus): (t: string)
    ensures t == "off-route" <==> s == OffRoute
  {
    match s
    case OffRoute => "off-route"
    case OnRoute => "on-route"
  }

  /** The record the senior's client writes; the timestamp is the server's time of the write. */
  function EncodeAlert(s: RouteStatus, serverTime: real, lastLocation: Value): (v: Value)
    ensures v.Obj?
  {
    Obj([("status", Str(StatusText(s))), ("timestamp", Num(serverTime)),
         ("last_location", if s == OffRoute then lastLocation else Null)])
  }

  /** What the caregiver's map holds: the status text and the timestamp of the alert. */
  datatype Alert = Alert(status: Option<string>, timestamp: Option<Value>)

  const Cleared: Alert := Alert(None, None)

  /** `data.timestamp || null` */
  function TimestampOf(data: Value): (r: Option<Value>)
    ensures r.Some? <==> TruthyOpt(Get(data, "timestamp"))
    ensures r.Some? ==> Get(data, "timestamp") == r
  {
    if TruthyOpt(Get(data, "timestamp")) then Get(data, "timestamp") else None
  }

  /**
   * The listener's decoder (`Null` for a missing snapshot): a string status is
   * taken as is; an explicit null status keeps only the timestamp; anything else
   * clears both.
   */
  function DecodeAlert(snapshot: Value): (a: Alert)
    ensures snapshot == Null ==> a == Cleared
    ensures IsStr(Get(snapshot, "status")) ==>
              a == Alert(Some(Get(snapshot, "status").value.s), TimestampOf(snapshot))
    ensures Get(snapshot, "status") == Some(Null) ==> a == Alert(None, TimestampOf(snapshot))
    ensures !IsStr(Get(snapshot, "status")) && Get(snapshot, "status") != Some(Null) ==> a == Cleared
    ensures a.timestamp.Some? ==> Truthy(a.timestamp.value)
  {
    if snapshot == Null || !Truthy(snapshot) then Cleared
    else
      var status := Get(snapshot, "status");
      if IsStr(status) then Alert(Some(status.value.s), TimestampOf(snapshot))
      else if status == Some(Null) then Alert(None, TimestampOf(snapshot))
      else Cleared
  }

  /** The off-route banner is shown exactly for the status `off-route`. */
  predicate BannerShown(a: Alert)
  {
    a.status == Some("off-route")
  }

  /** The caregiver decodes exactly what the senior published, and sees the banner exactly for an off-route status. */
  lemma AlertRoundTrip(s: RouteStatus, serverTime: real, lastLocation: Value)
    requires serverTime != 0.0
    ensures DecodeAlert(EncodeAlert(s, serverTime, lastLocation)) == Alert(Some(StatusText(s)), Some(Num(serverTime)))
    ensures BannerShown(DecodeAlert(EncodeAlert(s, serverTime, lastLocation))) <==> s == OffRoute
  {
    var fs := EncodeAlert(s, serverTime, lastLocation).fields;
    assert "timestamp"[0] != "status"[0];
    LookupFirst(fs, "status", 0);
    LookupFirst(fs, "timestamp", 1);
  }

  /** The caregiver's listener: attached only when both the group and the senior are known. */
  datatype Watch = Watch(alert: Alert, listening: bool)

  datatype Event =
    | Reattach(groupId: Option<string>, seniorId: Option<string>)
    | AlertValue(snapshot: Value)
    | AlertFailed

  predicate Known(id: Option<string>)
  {
    id.Some? && id.value != ""
  }

  /**
   * One callback. Re-attaching always clears the alert first; values arrive only
   * while a listener is attached; a listener error clears the alert.
   */
  function Step(w: Watch, e: Event): (r: Watch)
    ensures e.Reattach? ==> r.alert == Cleared && (r.listening <==> Known(e.groupId) && Known(e.seniorId))
    ensures e.AlertValue? ==> r == (if w.listening then w.(alert := DecodeAlert(e.snapshot)) else w)
    ensures e.AlertFailed? && w.listening ==> r.alert == Cleared
    ensures !e.Reattach? ==> r.listening == w.listening
  {
    match e
    case Reattach(g, s) => Watch(Cleared, Known(g) && Known(s))
    case AlertValue(snapshot) => if w.listening then w.(alert := DecodeAlert(snapshot)) else w
    case AlertFailed => if w.listening then w.(alert := Cleared) else w
  }

  /** Without both ids nothing is ever shown, whatever arrives. */
  lemma {:induction false} UnknownIdsShowNothing(w0: Watch, g: Option<string>, s: Option<string>, events: seq<Event>)
    requires !Known(g) || !Known(s)
    requires forall i :: 0 <= i < |events| ==> !events[i].Reattach?
    ensures Run(Step(w0, Reattach(g, s)), events).alert == Cleared
    decreases |events|
  {
    var w := Step(w0, Reattach(g, s));
    if events != [] {
      assert Step(w, events[0]) == w;
      UnknownIdsShowNothing(w, g, s, events[1..]);
    }
  }

  function Run(w: Watch, events: seq<Event>): Watch
    decreases |events|
  {
    if events == [] then w else Run(Step(w, events[0]), events[1..])
  }
}

=== FILE: route_data.dfy ===
/**
 * The client's view of one registered route: the snapshot decoder (metadata,
 * time-ordered points, validated buffer ring) and the loading/error state the
 * subscription exposes.
 */
module RouteData {
  import opened Base
  import opened Json
  import opened Sorting
  import opened PointRecords

  datatype RouteData = RouteData(metadata: Option<Value>, points: seq<LatLng>, bufferPolygon: Option<seq<LatLng>>)

  /**
   * The route's points: when `points` is truthy, its values ordered by timestamp
   * (stably), with undecodable records dropped; otherwise none.
   */
  function ParsePoints(raw: Option<Value>): (pts: seq<LatLng>)
    ensures !TruthyOpt(raw) ==> pts == []
    ensures TruthyOpt(raw) ==>
              var recs := Chronological(Values(raw.value));
              |pts| == |recs| && forall i :: 0 <= i < |pts| ==> pts[i] == LatLngOf(recs[i])
  {
    if !TruthyOpt(raw) then []
    else
      var vs := Values(raw.value);
      var kept := KeepLatLng(SortBy(vs, TimestampKey));
      KeepSortCommute(vs);
      ToLatLngs(kept)
  }

  /**
   * The buffer ring: present only when `buffer_polygon` is an array whose every
   * element is an object with numeric `latitude` and `longitude`.
   */
  function DecodeBuffer(raw: Option<Value>): (r: Option<seq<LatLng>>)
    ensures r.Some? <==> raw.Some? && raw.value.Arr? && forall i :: 0 <= i < |raw.value.items| ==> HasLatLng(raw.value.items[i])
    ensures r.Some? ==> |r.value| == |raw.value.items|
                        && forall i :: 0 <= i < |r.value| ==> r.value[i] == LatLngOf(raw.value.items[i])
  {
    if raw.Some? && raw.value.Arr? && forall i :: 0 <= i < |raw.value.items| ==> HasLatLng(raw.value.items[i]) then
      Some(ToLatLngs(raw.value.items))
    else None
  }

  /** The decoder applied to an existing route snapshot. */
  function ParseRoute(raw: Value): (d: RouteData)
    ensures d.metadata.Some? <==> TruthyOpt(Get(raw, "metadata"))
    ensures d.metadata.Some? ==> Get(raw, "metadata") == Some(d.metadata.value)
    ensures d.points == ParsePoints(Get(raw, "points"))
    ensures d.bufferPolygon == DecodeBuffer(Get(raw, "buffer_polygon"))
  {
    var metadata := if TruthyOpt(Get(raw, "metadata")) then Some(Get(raw, "metadata").value) else None;
    RouteData(metadata, ParsePoints(Get(raw, "points")), DecodeBuffer(Get(raw, "buffer_polygon")))
  }

  datatype RouteError =
    | MissingRouteId            // no route id was given
    | RouteNotFound(id: string) // the route's snapshot does not exist
    | ListenFailed              // the listener reported an error

  datatype RouteView = RouteView(data: Option<RouteData>, loading: bool, error: Option<RouteError>)

  /** Settled: not loading, and exactly one of data and error is set. */
  predicate Settled(v: RouteView)
  {
    !v.loading && (v.data.Some? <==> v.error.None?)
  }

  /** Subscribing to a route id: an absent or empty id settles at once with an error; otherwise loading starts afresh. */
  function Subscribe(routeId: Option<string>): (v: RouteView)
    ensures routeId.None? || routeId.value == "" ==> Settled(v) && v.error == Some(MissingRouteId)
    ensures routeId.Some? && routeId.value != "" ==> v.loading && v.data.None? && v.error.None?
  {
    if routeId.None? || routeId.value == "" then RouteView(None, false, Some(MissingRouteId))
    else RouteView(None, true, None)
  }

  /** A value event: a missing snapshot reports not-found, an existing one replaces the data and clears the error. */
  function OnRouteValue(routeId: string, snapshot: Value): (v: RouteView)
    ensures Settled(v)
    ensures snapshot == Null <==> v.error == Some(RouteNotFound(routeId))
    ensures snapshot != Null ==> v.data == Some(ParseRoute(snapshot))
  {
    if snapshot == Null then RouteView(None, false, Some(RouteNotFound(routeId)))
    else RouteView(Some(ParseRoute(snapshot)), false, None)
  }

  /** A listener error drops the data. */
  function OnRouteError(): (v: RouteView)
    ensures Settled(v) && v.error == Some(ListenFailed)
  {
    RouteView(None, false, Some(ListenFailed))
  }
}

=== FILE: route_name.dfy ===
/**
 * The route-name dialog: the typed name is trimmed and falls back to a default
 * when nothing but white space was typed; every way out clears the field.
 */
module RouteName {
  import opened Text

  /** The default route name, "새 경로" ("new route"). */
  const DefaultRouteName: string := "\U{C0C8} \U{ACBD}\U{B85C}"

  /** What the dialog tells its owner. */
  datatype Callback = OnSave(name: string) | OnClose

  /** The dialog's text field. */
  datatype Dialog = Dialog(field: string)

  /** `routeName.trim() || '새 경로'` */
  function NameToSave(typed: string): (name: string)
    ensures name != []
    ensures !AllSpace(typed) ==> name == Trim(typed)
    ensures AllSpace(typed) ==> name == DefaultRouteName
  {
    var t := Trim(typed);
    if t == [] then DefaultRouteName else t
  }

  /** Saving reports the name once, then clears the field. */
  function Save(d: Dialog): (r: (Dialog, Callback))
    ensures r.0.field == [] && r.1.OnSave? && r.1.name != []
    ensures r.1.name == NameToSave(d.field)
  {
    (Dialog([]), OnSave(NameToSave(d.field)))
  }

  /** Closing clears the field and reports the close, never a save. */
  function Close(d: Dialog): (r: (Dialog, Callback))
    ensures r.0.field == [] && r.1 == OnClose
  {
    (Dialog([]), OnClose)
  }

  /** Showing the dialog clears the field. */
  function Show(d: Dialog): (r: Dialog)
    ensures r.field == []
  {
    Dialog([])
  }

  /** The default name has no surrounding white space. */
  lemma DefaultTrimmed()
    ensures Trimmed(DefaultRouteName) && !AllSpace(DefaultRouteName)
  {
    assert !IsJsSpace(DefaultRouteName[0]);
  }

  /**
   * A saved name typed in again, with any white space around it, saves as the
   * same name: the name is a fixed point of the saving rule.
   */
  lemma SavedNameStable(typed: string, before: string, after: string)
    requires AllSpace(before) && AllSpace(after)
    ensures NameToSave(before + NameToSave(typed) + after) == NameToSave(typed)
  {
    var n := NameToSave(typed);
    if AllSpace(typed) {
      DefaultTrimmed();
    }
    TrimOfPadded(before, n, after);
  }
}

=== FILE: route_utils.dfy ===
/**
 * Route geometry decisions of the walking client: the union containment test
 * over buffer polygons, the nearest point across route polylines, and the
 * turn classifier. Geometry library calls are parameters and stay uninterpreted.
 */
module RouteUtils {
  import opened Base
  import opened Angles

  /** `booleanPointInPolygon(point, polygon)` of the geometry library, as a relation. */
  type PointInPolygon = (LatLng, seq<LatLng>) -> bool

  /** A projection onto a polyline: the nearest point on it and its distance in meters. */
  datatype Projection = Projection(point: LatLng, dist: real)

  /**
   * `nearestPointOnLine(line, point)`; `None` covers a result without coordinates,
   * a non-numeric distance, and a thrown error, all of which skip the route.
   */
  type NearestOnLine = (seq<LatLng>, LatLng) -> Option<Projection>

  /** A polygon takes part in the containment test only with more than 3 vertices. */
  predicate UsableBuffer(polygon: seq<LatLng>)
  {
    |polygon| > 3
  }

  /** Some usable polygon contains the point: the union the containment test decides. */
  ghost predicate InsideUnion(p: LatLng, polygons: seq<seq<LatLng>>, contains: PointInPolygon)
  {
    exists i :: 0 <= i < |polygons| && UsableBuffer(polygons[i]) && contains(p, polygons[i])
  }

  /** The loop over the polygons, returning on the first usable polygon that contains the point. */
  function ScanBuffers(p: LatLng, polygons: seq<seq<LatLng>>, contains: PointInPolygon): (r: bool)
    ensures r <==> InsideUnion(p, polygons, contains)
  {
    if polygons == [] then false
    else if UsableBuffer(polygons[0]) && contains(p, polygons[0]) then true
    else
      var r := ScanBuffers(p, polygons[1..], contains);
      assert InsideUnion(p, polygons[1..], contains) ==> InsideUnion(p, polygons, contains) by {
        if InsideUnion(p, polygons[1..], contains) {
          var i :| 0 <= i < |polygons[1..]| && UsableBuffer(polygons[1..][i]) && contains(p, polygons[1..][i]);
          assert polygons[i + 1] == polygons[1..][i];
        }
      }
      assert InsideUnion(p, polygons, contains) ==> InsideUnion(p, polygons[1..], contains) by {
        if InsideUnion(p, polygons, contains) {
          var i :| 0 <= i < |polygons| && UsableBuffer(polygons[i]) && contains(p, polygons[i]);
          assert i != 0;
          assert polygons[1..][i - 1] == polygons[i];
        }
      }
      r
  }

  /**
   * `isPointInsideAnyBuffer`: false for a missing point or an empty list; otherwise
   * true exactly when some polygon with more than 3 vertices contains the point.
   */
  function IsPointInsideAnyBuffer(point: Option<LatLng>, polygons: seq<seq<LatLng>>, contains: PointInPolygon): (r: bool)
    ensures point.None? || polygons == [] ==> !r
    ensures r <==> point.Some? && InsideUnion(point.value, polygons, contains)
  {
    if point.None? || |polygons| == 0 then false
    else ScanBuffers(point.value, polygons, contains)
  }

  /** Union monotonicity: adding polygons on either side never turns a hit into a miss. */
  lemma InsideAnyMonotone(point: Option<LatLng>, a: seq<seq<LatLng>>, b: seq<seq<LatLng>>, contains: PointInPolygon)
    requires IsPointInsideAnyBuffer(point, a, contains)
    ensures IsPointInsideAnyBuffer(point, a + b, contains)
    ensures IsPointInsideAnyBuffer(point, b + a, contains)
  {
    var p := point.value;
    var i :| 0 <= i < |a| && UsableBuffer(a[i]) && contains(p, a[i]);
    assert (a + b)[i] == a[i];
    assert (b + a)[|b| + i] == a[i];
  }

  /** A polygon with 3 or fewer vertices never decides the result: adding one changes nothing. */
  lemma SmallPolygonIgnored(point: Option<LatLng>, a: seq<seq<LatLng>>, small: seq<LatLng>, b: seq<seq<LatLng>>, contains: PointInPolygon)
    requires !UsableBuffer(small)
    ensures IsPointInsideAnyBuffer(point, a + [small] + b, contains) == IsPointInsideAnyBuffer(point, a + b, contains)
  {
    var withSmall := a + [small] + b;
    if point.Some? {
      var p := point.value;
      if InsideUnion(p, withSmall, contains) {
        var i :| 0 <= i < |withSmall| && UsableBuffer(withSmall[i]) && contains(p, withSmall[i]);
        if i < |a| {
          assert (a + b)[i] == withSmall[i];
        } else {
          assert i > |a|;
          assert (a + b)[i - 1] == withSmall[i];
        }
      }
      if InsideUnion(p, a + b, contains) {
        var i :| 0 <= i < |a + b| && UsableBuffer((a + b)[i]) && contains(p, (a + b)[i]);
        if i < |a| {
          assert withSmall[i] == (a + b)[i];
        } else {
          assert withSmall[i + 1] == (a + b)[i];
        }
      }
    }
  }

  // ---------------------------------------------------------------------------
  // Nearest point across route polylines

  /** A route takes part in the nearest-point search when it has at least 2 points and the library projects onto it. */
  predicate Candidate(route: seq<LatLng>, p: LatLng, nearest: NearestOnLine)
  {
    |route| >= 2 && nearest(route, p).Some?
  }

  function Dist(route: seq<LatLng>, p: LatLng, nearest: NearestOnLine): real
    requires Candidate(route, p, nearest)
  {
    nearest(route, p).value.dist
  }

  /** No route among the first `n` qualifies. */
  ghost predicate NoCandidate(routes: seq<seq<LatLng>>, n: nat, p: LatLng, nearest: NearestOnLine)
    requires n <= |routes|
  {
    forall j :: 0 <= j < n ==> !Candidate(routes[j], p, nearest)
  }

  /**
   * Route `i` wins among the first `n`: its distance is no larger than any other
   * candidate's, and strictly smaller than every earlier candidate's.
   */
  ghost predicate WinnerAmong(routes: seq<seq<LatLng>>, n: nat, i: nat, p: LatLng, nearest: NearestOnLine)
    requires n <= |routes|
  {
    && i < n
    && Candidate(routes[i], p, nearest)
    && (forall j :: 0 <= j < n && Candidate(routes[j], p, nearest) ==>
          Dist(routes[i], p, nearest) <= Dist(routes[j], p, nearest))
    && (forall j :: 0 <= j < i && Candidate(routes[j], p, nearest) ==>
          Dist(routes[i], p, nearest) < Dist(routes[j], p, nearest))
  }

  /** Ties go to the earlier route, so there is at most one winner. */
  lemma WinnerUnique(routes: seq<seq<LatLng>>, n: nat, i: nat, k: nat, p: LatLng, nearest: NearestOnLine)
    requires n <= |routes|
    requires WinnerAmong(routes, n, i, p, nearest) && WinnerAmong(routes, n, k, p, nearest)
    ensures i == k
  {
  }

  /**
   * The loop over the routes from index `k`, holding the index of the best route so far;
   * a later route replaces it only with a strictly smaller distance.
   */
  function NearestFrom(routes: seq<seq<LatLng>>, p: LatLng, nearest: NearestOnLine, k: nat, best: Option<nat>): (r: Option<nat>)
    requires k <= |routes|
    requires best.None? ==> NoCandidate(routes, k, p, nearest)
    requires best.Some? ==> WinnerAmong(routes, k, best.value, p, nearest)
    ensures r.None? ==> NoCandidate(routes, |routes|, p, nearest)
    ensures r.Some? ==> WinnerAmong(routes, |routes|, r.value, p, nearest)
    decreases |routes| - k
  {
    if k == |routes| then best
    else if Candidate(routes[k], p, nearest)
         && (best.None? || Dist(routes[k], p, nearest) < Dist(routes[best.value], p, nearest)) then
      NearestFrom(routes, p, nearest, k + 1, Some(k))
    else
      NearestFrom(routes, p, nearest, k + 1, best)
  }

  /**
   * `findNearestPointOnRoutes`: `None` for a missing point, a missing or empty list, or
   * when no route qualifies; otherwise the projection onto the unique winning route.
   */
  function FindNearestPointOnRoutes(point: Option<LatLng>, routes: Option<seq<seq<LatLng>>>, nearest: NearestOnLine): (r: Option<LatLng>)
    ensures r.None? <==> point.None? || routes.None? || NoCandidate(routes.value, |routes.value|, point.value, nearest)
    ensures r.Some? ==> exists i: nat :: WinnerAmong(routes.value, |routes.value|, i, point.value, nearest)
                                    && r.value == nearest(routes.value[i], point.value).value.point
  {
    if point.None? || routes.None? || |routes.value| == 0 then None
    else
      match NearestFrom(routes.value, point.value, nearest, 0, None)
      case None => None
      case Some(i) => Some(nearest(routes.value[i], point.value).value.point)
  }

  // ---------------------------------------------------------------------------
  // Turn direction

  datatype Turn = Left | Right | Straight

  /** The default angular tolerance, in degrees, within which no turn is announced. */
  const DefaultTolerance: real := 15.0

  /** `(targetBearing + 360) % 360` */
  function NormalizeBearing(bearing: real): (r: real)
    ensures -360.0 <= bearing ==> 0.0 <= r < 360.0
    ensures SameAngle(r, bearing)
  {
    var r := JsRem(bearing + 360.0, 360.0);
    JsRemSameAngle(bearing + 360.0);
    var k :| r - (bearing + 360.0) == Turns(k);
    assert r - bearing == Turns(k + 1);
    r
  }

  /** The signed difference from heading to bearing, folded once into (-180, 180]. */
  function HeadingDifference(heading: real, bearing: real): (d: real)
    ensures 0.0 <= heading < 360.0 && -180.0 <= bearing <= 180.0 ==> -180.0 < d <= 180.0
    ensures SameAngle(d, bearing - heading)
  {
    var b := NormalizeBearing(bearing);
    var diff := b - heading;
    var k :| b - bearing == Turns(k);
    if diff > 180.0 then
      assert (diff - 360.0) - (bearing - heading) == Turns(k - 1);
      diff - 360.0
    else if diff <= -180.0 then
      assert (diff + 360.0) - (bearing - heading) == Turns(k + 1);
      diff + 360.0
    else
      assert diff - (bearing - heading) == Turns(k);
      diff
  }

  /** Applies the tolerance band to a difference: straight within it, right above, left below. */
  function ClassifyDifference(diff: real, tolerance: real): (t: Turn)
    ensures t == Straight <==> Abs(diff) <= tolerance
    ensures tolerance >= 0.0 ==> (t == Right <==> diff > tolerance)
    ensures tolerance >= 0.0 ==> (t == Left <==> diff < -tolerance)
  {
    if Abs(diff) <= tolerance then Straight
    else if diff > 0.0 then Right
    else Left
  }

  /**
   * `calculateTurnDirection(currentHeading, targetBearing, tolerance)`: for a heading
   * in [0, 360) and a bearing in [-180, 180], the turn is read off the one angle in
   * (-180, 180] by which the bearing lies clockwise of the heading: straight within
   * the tolerance, right beyond it, left below its negative.
   */
  function CalculateTurnDirection(heading: real, bearing: real, tolerance: real): (t: Turn)
    ensures 0.0 <= heading < 360.0 && -180.0 <= bearing <= 180.0 ==>
              forall d :: -180.0 < d <= 180.0 && SameAngle(d, bearing - heading) ==>
                && (t == Straight <==> Abs(d) <= tolerance)
                && (tolerance >= 0.0 ==> (t == Right <==> d > tolerance))
                && (tolerance >= 0.0 ==> (t == Left <==> d < -tolerance))
  {
    var diff := HeadingDifference(heading, bearing);
    UniqueFold(diff, bearing - heading);
    ClassifyDifference(diff, tolerance)
  }

  /** Two angles in (-180, 180] that name the same direction are equal. */
  lemma UniqueFold(d: real, x: real)
    requires SameAngle(d, x)
    ensures -180.0 < d <= 180.0 ==> forall e :: -180.0 < e <= 180.0 && SameAngle(e, x) ==> e == d
  {
    var k :| d - x == Turns(k);
    forall e | -180.0 < d <= 180.0 && -180.0 < e <= 180.0 && SameAngle(e, x)
      ensures e == d
    {
      var j :| e - x == Turns(j);
      assert e - d == Turns(j - k);
    }
  }

  /** The three worked cases of the classifier with the default tolerance. */
  lemma TurnExamples()
    ensures CalculateTurnDirection(350.0, 10.0, DefaultTolerance) == Right
    ensures CalculateTurnDirection(10.0, 5.0, DefaultTolerance) == Straight
    ensures CalculateTurnDirection(0.0, 170.0, DefaultTolerance) == Right
  {
    assert NormalizeBearing(10.0) == 10.0;
    assert NormalizeBearing(5.0) == 5.0;
    assert NormalizeBearing(170.0) == 170.0;
  }
}

=== FILE: senior_location.dfy ===
/**
 * The caregiver's view of the senior's latest location: the senior is looked up
 * in the group, then the newest history entry is validated and shown.
 */
module SeniorLocation {
  import opened Base
  import opened Json
  import opened Groups

  datatype SeniorLocationData = SeniorLocationData(latitude: real, longitude: real, heading: real, timestamp: real)

  datatype SeniorError =
    | MissingGroupId        // no group id was given
    | GroupNotFound         // the group node does not exist
    | NoSeniorInGroup       // no member id starts with `senior_`
    | InvalidLocation       // the newest entry is not a complete location
    | NoLocationYet         // the history is empty
    | ListenerFailed        // the location listener reported an error
    | LookupFailed          // the group read threw

  datatype SeniorView = SeniorView(
    location: Option<SeniorLocationData>,
    loading: bool,
    error: Option<SeniorError>,
    seniorUserId: Option<string>)

  /** The four fields the validator demands to be numbers. */
  predicate IsLocation(v: Value)
  {
    IsNum(Get(v, "latitude")) && IsNum(Get(v, "longitude"))
    && IsNum(Get(v, "heading")) && IsNum(Get(v, "timestamp"))
  }

  /**
   * The newest entry of a snapshot ordered by key and limited to the last one:
   * the value under its first key, `None` when there is none.
   */
  function Latest(snapshot: Value): (r: Option<Value>)
    ensures r.Some? <==> Entries(snapshot) != []
    ensures r.Some? ==> r.value == Entries(snapshot)[0].1
  {
    var entries := Entries(snapshot);
    if entries == [] then None else Some(entries[0].1)
  }

  /** A complete location is read field by field; anything else is rejected. */
  function DecodeLocation(v: Value): (r: Option<SeniorLocationData>)
    ensures r.Some? <==> IsLocation(v)
    ensures r.Some? ==> && Get(v, "latitude") == Some(Num(r.value.latitude))
                        && Get(v, "longitude") == Some(Num(r.value.longitude))
                        && Get(v, "heading") == Some(Num(r.value.heading))
                        && Get(v, "timestamp") == Some(Num(r.value.timestamp))
  {
    if IsLocation(v) then
      Some(SeniorLocationData(Get(v, "latitude").value.n, Get(v, "longitude").value.n,
                              Get(v, "heading").value.n, Get(v, "timestamp").value.n))
    else None
  }

  /** How the senior client stores a location entry. */
  function EncodeLocation(d: SeniorLocationData): (v: Value)
    ensures v.Obj?
  {
    Obj([("latitude", Num(d.latitude)), ("longitude", Num(d.longitude)),
         ("heading", Num(d.heading)), ("timestamp", Num(d.timestamp))])
  }

  /** A stored location read back as the newest entry is the location itself. */
  lemma LocationRoundTrip(key: string, d: SeniorLocationData)
    ensures Latest(Obj([(key, EncodeLocation(d))])) == Some(EncodeLocation(d))
    ensures DecodeLocation(EncodeLocation(d)) == Some(d)
  {
    EncodedPosition(d);
    EncodedHeadingAndTime(d);
  }

  lemma EncodedPosition(d: SeniorLocationData)
    ensures Get(EncodeLocation(d), "latitude") == Some(Num(d.latitude))
    ensures Get(EncodeLocation(d), "longitude") == Some(Num(d.longitude))
  {
    var fs := EncodeLocation(d).fields;
    assert "latitude"[1] != "longitude"[1];
    LookupFirst(fs, "latitude", 0);
    LookupFirst(fs, "longitude", 1);
  }

  lemma EncodedHeadingAndTime(d: SeniorLocationData)
    ensures Get(EncodeLocation(d), "heading") == Some(Num(d.heading))
    ensures Get(EncodeLocation(d), "timestamp") == Some(Num(d.timestamp))
  {
    var fs := EncodeLocation(d).fields;
    assert "heading"[0] != "latitude"[0] && "heading"[0] != "longitude"[0];
    assert "timestamp"[0] != "latitude"[0] && "timestamp"[0] != "longitude"[0] && "timestamp"[0] != "heading"[0];
    LookupFirst(fs, "heading", 2);
    LookupFirst(fs, "timestamp", 3);
  }

  /** Subscribing: a missing or empty group id stops with an error; otherwise everything is cleared while loading. */
  function Start(groupId: Option<string>): (v: SeniorView)
    ensures groupId.None? || groupId.value == "" ==>
              v == SeniorView(None, false, Some(MissingGroupId), None)
    ensures groupId.Some? && groupId.value != "" ==>
              v.loading && v.error.None? && v.location.None? && v.seniorUserId.None?
  {
    if groupId.None? || groupId.value == "" then SeniorView(None, false, Some(MissingGroupId), None)
    else SeniorView(None, true, None, None)
  }

  /** The location listener is attached once the senior has been found. */
  predicate Listening(v: SeniorView)
  {
    v.seniorUserId.Some?
  }

  /**
   * The group read (`Null` when the group does not exist): a missing group or a
   * group without a senior ends loading with an error; otherwise the senior id is
   * recorded and the location listener is attached, still loading.
   */
  function OnGroup(v: SeniorView, group: Value): (r: SeniorView)
    ensures group == Null ==> r == v.(error := Some(GroupNotFound), loading := false)
    ensures group != Null && FirstSeniorId(group).Some? ==>
              r == v.(seniorUserId := FirstSeniorId(group))
    ensures group != Null && FirstSeniorId(group).None? ==>
              r == v.(error := Some(NoSeniorInGroup), loading := false)
  {
    if group == Null then v.(error := Some(GroupNotFound), loading := false)
    else match FirstSeniorId(group)
      case Some(id) => v.(seniorUserId := Some(id))
      case None => v.(error := Some(NoSeniorInGroup), loading := false)
  }

  /**
   * A value of the location listener (`Null` when the history is empty): a complete
   * newest entry is shown and clears the error; an incomplete one or an empty history
   * clears the location with an error. Loading ends either way.
   */
  function OnLocation(v: SeniorView, snapshot: Value): (r: SeniorView)
    ensures !r.loading && r.seniorUserId == v.seniorUserId
    ensures r.location.Some? <==> r.error.None?
    ensures snapshot == Null ==> r.location.None? && r.error == Some(NoLocationYet)
    ensures snapshot != Null ==>
              (r.location.Some? <==> Latest(snapshot).Some? && IsLocation(Latest(snapshot).value))
    ensures r.location.Some? ==> r.location == DecodeLocation(Latest(snapshot).value)
  {
    if snapshot == Null then v.(location := None, error := Some(NoLocationYet), loading := false)
    else
      var decoded := match Latest(snapshot) case None => None case Some(e) => DecodeLocation(e);
      match decoded
      case Some(d) => v.(location := Some(d), error := None, loading := false)
      case None => v.(location := None, error := Some(InvalidLocation), loading := false)
  }

  /** A listener error clears the location and ends loading. */
  function OnListenerError(v: SeniorView): (r: SeniorView)
    ensures r == v.(location := None, error := Some(ListenerFailed), loading := false)
    ensures r.location.None? && !r.loading
  {
    v.(error := Some(ListenerFailed), loading := false, location := None)
  }

  /** A failed group read ends loading with an error. */
  function OnLookupError(v: SeniorView): (r: SeniorView)
    ensures r.error == Some(LookupFailed) && !r.loading
    ensures r.location == v.location && r.seniorUserId == v.seniorUserId
  {
    v.(error := Some(LookupFailed), loading := false)
  }

  datatype Event =
    | GroupRead(group: Value)
    | GroupReadFailed
    | LocationValue(snapshot: Value)
    | LocationFailed

  /**
   * One callback. The group read answers once, before any listener exists; location
   * callbacks only arrive while the listener is attached.
   */
  function Step(v: SeniorView, e: Event): (r: SeniorView)
    ensures e.LocationValue? || e.LocationFailed? ==> (Listening(v) ==> !r.loading) && (!Listening(v) ==> r == v)
    ensures e.GroupRead? || e.GroupReadFailed? ==> (Listening(v) ==> r == v)
  {
    match e
    case GroupRead(g) => if Listening(v) then v else OnGroup(v, g)
    case GroupReadFailed => if Listening(v) then v else OnLookupError(v)
    case LocationValue(s) => if Listening(v) then OnLocation(v, s) else v
    case LocationFailed => if Listening(v) then OnListenerError(v) else v
  }

  function Run(v: SeniorView, events: seq<Event>): SeniorView
    decreases |events|
  {
    if events == [] then v else Run(Step(v, events[0]), events[1..])
  }

  /**
   * What the view shows is consistent: a location is only ever shown without an
   * error, for a senior that was found, with loading over.
   */
  predicate Consistent(v: SeniorView)
  {
    v.location.Some? ==> v.error.None? && v.seniorUserId.Some? && !v.loading
  }

  lemma StepConsistent(v: SeniorView, e: Event)
    requires Consistent(v)
    ensures Consistent(Step(v, e))
  {
  }

  /** Whatever callbacks arrive after subscribing, the view stays consistent. */
  lemma {:induction false} RunConsistent(v: SeniorView, events: seq<Event>)
    requires Consistent(v)
    ensures Consistent(Run(v, events))
    decreases |events|
  {
    if events != [] {
      StepConsistent(v, events[0]);
      RunConsistent(Step(v, events[0]), events[1..]);
    }
  }

  lemma StartConsistent(groupId: Option<string>)
    ensures Consistent(Start(groupId))
  {
  }
}

=== FILE: signup.dfy ===
/**
 * Signup. A senior gets a fresh six-digit group id drawn at random with a bounded
 * number of retries; a caregiver joins an existing group by its id and is linked
 * to the group's senior.
 */
module Signup {
  import opened Base
  import opened Text
  import opened Json
  import opened Groups
  import opened Accounts

  /** At most this many random group ids are tried. */
  const MaxAttempts: nat := 10

  /** `Math.floor(100000 + r * 900000)` for a draw `r` in [0, 1). */
  function CandidateNumber(r: real): (n: nat)
    requires 0.0 <= r < 1.0
    ensures 100000 <= n <= 999999
  {
    assert r * 900000.0 < 900000.0;
    (100000.0 + r * 900000.0).Floor
  }

  /** The candidate's decimal form, always six digits. */
  function CandidateId(r: real): (s: string)
    requires 0.0 <= r < 1.0
    ensures IsSixDigits(s)
  {
    SixDigitRange(CandidateNumber(r));
    NatToString(CandidateNumber(r))
  }

  /** Enough random draws in [0, 1) for every attempt. */
  predicate ValidDraws(draws: seq<real>)
  {
    |draws| >= MaxAttempts && forall i :: 0 <= i < |draws| ==> 0.0 <= draws[i] < 1.0
  }

  /** The first `n` candidates all name existing groups. */
  predicate AllTaken(draws: seq<real>, existing: set<string>, n: nat)
    requires ValidDraws(draws) && n <= MaxAttempts
  {
    forall k :: 0 <= k < n ==> CandidateId(draws[k]) in existing
  }

  /**
   * `generateUniqueGroupId`, given the draws and the ids of the existing groups:
   * the first candidate not in use, or `None` (the thrown error) after
   * `MaxAttempts` collisions.
   */
  method GenerateUniqueGroupId(draws: seq<real>, existing: set<string>) returns (r: Option<string>)
    requires ValidDraws(draws)
    ensures r.None? <==> AllTaken(draws, existing, MaxAttempts)
    ensures r.Some? ==> IsSixDigits(r.value) && r.value !in existing
    ensures r.Some? ==> exists k :: 0 <= k < MaxAttempts && r.value == CandidateId(draws[k])
                                    && AllTaken(draws, existing, k)
  {
    var attempts := 0;
    while attempts < MaxAttempts
      invariant 0 <= attempts <= MaxAttempts
      invariant AllTaken(draws, existing, attempts)
    {
      var id := CandidateId(draws[attempts]);
      if id !in existing {
        return Some(id);
      }
      attempts := attempts + 1;
    }
    return None;
  }

  datatype Rejection =
    | MissingField        // a required field is empty
    | BadGroupId          // the group id is not six digits
    | GroupNotFound       // no group has that id

  /** The outcome of a signup: rejected before writing, failed with an error, or registered. */
  datatype SignupOutcome =
    | Rejected(reason: Rejection)
    | Failed
    | Registered(session: Session, writes: seq<Write>, screen: Screen)

  /** `prefix + Date.now()` */
  function UserId(prefix: string, now: nat): string
  {
    prefix + NatToString(now)
  }

  /**
   * `handleSeniorSignup`: empty fields stop before any lookup; otherwise a fresh
   * group id is drawn and the senior is written into it and signed in.
   */
  method SeniorSignup(name: string, phone: string, password: string, draws: seq<real>, existing: set<string>,
                      now: nat, createdAt: real) returns (out: SignupOutcome)
    requires ValidDraws(draws)
    ensures name == "" || phone == "" || password == "" ==> out == Rejected(MissingField)
    ensures name != "" && phone != "" && password != "" ==>
              (out.Failed? <==> AllTaken(draws, existing, MaxAttempts)) && !out.Rejected?
    ensures out.Registered? ==>
              var g := out.session.groupId;
              var id := UserId(SeniorPrefix, now);
              && IsSixDigits(g) && g !in existing
              && (exists k :: 0 <= k < MaxAttempts && g == CandidateId(draws[k]) && AllTaken(draws, existing, k))
              && out.session == Session(g, id, name, Some(Str(SeniorRole)))
              && out.writes == [SetUser(g, id, UserRecord(name, phone, password, SeniorRole, createdAt))]
              && out.screen == MapScreen
  {
    if name == "" || phone == "" || password == "" {
      return Rejected(MissingField);
    }
    var groupId := GenerateUniqueGroupId(draws, existing);
    if groupId.None? {
      return Failed;
    }
    var g := groupId.value;
    var id := UserId(SeniorPrefix, now);
    out := Registered(Session(g, id, name, Some(Str(SeniorRole))),
                      [SetUser(g, id, UserRecord(name, phone, password, SeniorRole, createdAt))], MapScreen);
  }

  /**
   * `handleCaregiverSignup`, given the group node (`Null` when the group does not
   * exist) and whether linking the senior succeeds. Empty fields and a group id that
   * is not six digits are rejected before the lookup; a missing group is rejected
   * with nothing written. A failed link does not stop the signup.
   */
  function CaregiverSignup(name: string, phone: string, password: string, groupId: string, group: Value,
                           now: nat, createdAt: real, linkSucceeds: bool): (out: SignupOutcome)
    ensures name == "" || phone == "" || password == "" || groupId == "" ==> out == Rejected(MissingField)
    ensures name != "" && phone != "" && password != "" && groupId != "" ==>
              (out == Rejected(BadGroupId) <==> !IsSixDigits(groupId))
    ensures IsSixDigits(groupId) && name != "" && phone != "" && password != "" ==>
              (out == Rejected(GroupNotFound) <==> group == Null)
    ensures out.Registered? ==>
              var id := UserId(CaregiverPrefix, now);
              && IsSixDigits(groupId) && group != Null
              && out.session == Session(groupId, id, name, Some(Str(CaregiverRole)))
              && 1 <= |out.writes| && out.writes[0] == SetUser(groupId, id, UserRecord(name, phone, password, CaregiverRole, createdAt))
              && (|out.writes| == 2 <==> linkSucceeds && FirstSeniorId(group).Some?)
              && (|out.writes| == 2 ==> out.writes[1] == LinkCaregiver(groupId, FirstSeniorId(group).value, id))
              && out.screen == CaregiverMapScreen
    ensures name != "" && phone != "" && password != "" && IsSixDigits(groupId) && group != Null ==> out.Registered?
    ensures !out.Registered? ==> !out.Failed?
  {
    if name == "" || phone == "" || password == "" || groupId == "" then Rejected(MissingField)
    else if !IsSixDigits(groupId) then Rejected(BadGroupId)
    else if group == Null then Rejected(GroupNotFound)
    else
      var id := UserId(CaregiverPrefix, now);
      var user := SetUser(groupId, id, UserRecord(name, phone, password, CaregiverRole, createdAt));
      var link := match FirstSeniorId(group)
                  case Some(s) => if linkSucceeds then [LinkCaregiver(groupId, s, id)] else []
                  case None => [];
      Registered(Session(groupId, id, name, Some(Str(CaregiverRole))), [user] + link, CaregiverMapScreen)
  }

  /**
   * A caregiver who enters the group id a senior was issued joins that group and is
   * linked to that senior, also when caregivers have joined the group before and are
   * listed ahead of the senior.
   */
  lemma CaregiverJoinsSenior(r: real, joined: seq<(string, Value)>, seniorTime: nat, senior: UserRecord,
                             later: seq<(string, Value)>,
                             name: string, phone: string, password: string, now: nat, createdAt: real)
    requires 0.0 <= r < 1.0
    requires name != "" && phone != "" && password != ""
    requires forall k :: 0 <= k < |joined| ==> StartsWith(joined[k].0, CaregiverPrefix)
    ensures var g := CandidateId(r);
            var s := UserId(SeniorPrefix, seniorTime);
            var id := UserId(CaregiverPrefix, now);
            var group := Obj(joined + [(s, EncodeUser(senior))] + later);
            var out := CaregiverSignup(name, phone, password, g, group, now, createdAt, true);
            && out.Registered? && out.session.groupId == g
            && out.writes == [SetUser(g, id, UserRecord(name, phone, password, CaregiverRole, createdAt)),
                              LinkCaregiver(g, s, id)]
  {
    var s := UserId(SeniorPrefix, seniorTime);
    assert StartsWith(s, SeniorPrefix) by {
      assert s[..|SeniorPrefix|] == SeniorPrefix;
    }
    forall k | 0 <= k < |joined|
      ensures !StartsWith(joined[k].0, SeniorPrefix)
    {
      CaregiverIsNotSenior(joined[k].0);
    }
    var group := Obj(joined + [(s, EncodeUser(senior))] + later);
    FirstKeyAfter(joined, (s, EncodeUser(senior)), later, SeniorPrefix);
    assert FirstSeniorId(group) == Some(s);
  }
}

=== FILE: sorting.dfy ===
/** `Array.prototype.sort` with a numeric key comparator `(a, b) => key(a) - key(b)`, which is stable. */
module Sorting {

  predicate SortedBy<T>(xs: seq<T>, key: T -> real)
  {
    forall i, j :: 0 <= i < j < |xs| ==> key(xs[i]) <= key(xs[j])
  }

  /** Inserts `x` after every element whose key is not larger, keeping earlier equal keys first. */
  function InsertBy<T>(x: T, xs: seq<T>, key: T -> real): (r: seq<T>)
    ensures |r| == |xs| + 1
    ensures key(r[0]) == key(x) || (xs != [] && key(r[0]) == key(xs[0]))
  {
    if xs == [] then [x]
    else if key(x) < key(xs[0]) then [x] + xs
    else [xs[0]] + InsertBy(x, xs[1..], key)
  }

  /** Inserting into an ordered sequence keeps it ordered. */
  lemma {:induction false} InsertSorted<T>(x: T, xs: seq<T>, key: T -> real)
    requires SortedBy(xs, key)
    ensures SortedBy(InsertBy(x, xs, key), key)
  {
    if xs != [] {
      if key(x) < key(xs[0]) {
        ConsSorted(x, xs, key);
      } else {
        SortedTail(xs, key);
        InsertSorted(x, xs[1..], key);
        var rest := InsertBy(x, xs[1..], key);
        assert |xs| > 1 ==> xs[1..][0] == xs[1] && key(xs[0]) <= key(xs[1]);
        ConsSorted(xs[0], rest, key);
      }
    }
  }

  /** Putting an element no larger than the head in front of an ordered sequence keeps it ordered. */
  lemma ConsSorted<T>(h: T, t: seq<T>, key: T -> real)
    ensures SortedBy(t, key) && (t != [] ==> key(h) <= key(t[0])) ==> SortedBy([h] + t, key)
  {
    if SortedBy(t, key) && (t != [] ==> key(h) <= key(t[0])) {
      var r := [h] + t;
      forall i, j | 0 <= i < j < |r| ensures key(r[i]) <= key(r[j]) {
        assert r[j] == t[j - 1];
        if i == 0 {
          assert key(t[0]) <= key(t[j - 1]);
        } else {
          assert r[i] == t[i - 1];
        }
      }
    }
  }

  /** Stable sort: the result is ordered by key and holds exactly the input elements. */
  function SortBy<T>(xs: seq<T>, key: T -> real): (r: seq<T>)
    ensures SortedBy(r, key)
    ensures |r| == |xs|
  {
    if xs == [] then []
    else
      var sorted := SortBy(xs[..|xs| - 1], key);
      InsertSorted(xs[|xs| - 1], sorted, key);
      InsertBy(xs[|xs| - 1], sorted, key)
  }

  /** Inserting adds exactly the one element. */
  lemma {:induction false} InsertPermutes<T>(x: T, xs: seq<T>, key: T -> real)
    ensures multiset(InsertBy(x, xs, key)) == multiset(xs) + multiset{x}
  {
    if xs == [] {
      assert InsertBy(x, xs, key) == [x];
    } else if key(x) < key(xs[0]) {
      assert InsertBy(x, xs, key) == [x] + xs;
    } else {
      var rest := InsertBy(x, xs[1..], key);
      assert InsertBy(x, xs, key) == [xs[0]] + rest;
      InsertPermutes(x, xs[1..], key);
      assert multiset(xs) == multiset{xs[0]} + multiset(xs[1..]) by {
        assert xs == [xs[0]] + xs[1..];
      }
    }
  }

  /** The sorted sequence holds exactly the input elements: it is a permutation. */
  lemma {:induction false} SortPermutes<T>(xs: seq<T>, key: T -> real)
    ensures multiset(SortBy(xs, key)) == multiset(xs)
  {
    if xs != [] {
      var init, last := xs[..|xs| - 1], xs[|xs| - 1];
      assert SortBy(xs, key) == InsertBy(last, SortBy(init, key), key);
      SortPermutes(init, key);
      InsertPermutes(last, SortBy(init, key), key);
      MultisetInitLast(xs);
    }
  }

  lemma MultisetInitLast<T>(xs: seq<T>)
    requires xs != []
    ensures multiset(xs) == multiset(xs[..|xs| - 1]) + multiset{xs[|xs| - 1]}
  {
    assert xs == xs[..|xs| - 1] + [xs[|xs| - 1]];
  }

  /** An input that is already ordered comes back unchanged. */
  lemma {:induction false} SortSorted<T>(xs: seq<T>, key: T -> real)
    requires SortedBy(xs, key)
    ensures SortBy(xs, key) == xs
  {
    if xs != [] {
      var init := xs[..|xs| - 1];
      SortSorted(init, key);
      InsertLast(xs[|xs| - 1], init, key);
      assert init + [xs[|xs| - 1]] == xs;
    }
  }

  /** The sort is stable: the elements sharing any one key keep their input order. */
  lemma SortStable<T>(xs: seq<T>, key: T -> real, k: real)
    ensures Filter(SortBy(xs, key), x => key(x) == k) == Filter(xs, x => key(x) == k)
  {
    var same := x => key(x) == k;
    FilterSortCommute(xs, same, key);
    var f := Filter(xs, same);
    assert forall i :: 0 <= i < |f| ==> key(f[i]) == k;
    SortSorted(f, key);
  }

  lemma {:induction false} InsertLast<T>(x: T, xs: seq<T>, key: T -> real)
    requires SortedBy(xs, key)
    requires forall i :: 0 <= i < |xs| ==> key(xs[i]) <= key(x)
    ensures InsertBy(x, xs, key) == xs + [x]
  {
    if xs != [] {
      SortedTail(xs, key);
      assert forall i :: 0 <= i < |xs| - 1 ==> xs[1..][i] == xs[i + 1];
      InsertLast(x, xs[1..], key);
      assert [xs[0]] + (xs[1..] + [x]) == xs + [x];
    }
  }

  /** `Array.prototype.filter(keep)`: the kept elements in their order. */
  function Filter<T>(xs: seq<T>, keep: T -> bool): (r: seq<T>)
    ensures forall i :: 0 <= i < |r| ==> keep(r[i])
  {
    if xs == [] then []
    else (if keep(xs[0]) then [xs[0]] else []) + Filter(xs[1..], keep)
  }

  /** Filtering invents nothing: every kept element was in the input. */
  lemma {:induction false} FilterMember<T>(xs: seq<T>, keep: T -> bool, x: T)
    requires x in Filter(xs, keep)
    ensures x in xs && keep(x)
  {
    if xs != [] {
      var head := if keep(xs[0]) then [xs[0]] else [];
      if x !in head {
        assert x in Filter(xs[1..], keep);
        FilterMember(xs[1..], keep, x);
      }
    }
  }

  lemma FilterCons<T>(y: T, rest: seq<T>, keep: T -> bool)
    ensures Filter([y] + rest, keep) == (if keep(y) then [y] else []) + Filter(rest, keep)
  {
    assert ([y] + rest)[1..] == rest;
  }

  lemma {:induction false} FilterSnoc<T>(xs: seq<T>, x: T, keep: T -> bool)
    ensures Filter(xs + [x], keep) == Filter(xs, keep) + (if keep(x) then [x] else [])
  {
    if xs == [] {
      assert xs + [x] == [x];
    } else {
      assert (xs + [x])[1..] == xs[1..] + [x];
      FilterSnoc(xs[1..], x, keep);
    }
  }

  /** Every kept element comes from the input, so bounds on keys carry over. */
  lemma {:induction false} FilterKeysAbove<T>(xs: seq<T>, keep: T -> bool, key: T -> real, bound: real)
    requires forall i :: 0 <= i < |xs| ==> bound < key(xs[i])
    ensures forall i :: 0 <= i < |Filter(xs, keep)| ==> bound < key(Filter(xs, keep)[i])
  {
    if xs != [] {
      FilterKeysAbove(xs[1..], keep, key, bound);
      var rest := Filter(xs[1..], keep);
      var head := if keep(xs[0]) then [xs[0]] else [];
      forall i | 0 <= i < |Filter(xs, keep)|
        ensures bound < key(Filter(xs, keep)[i])
      {
        if i < |head| {
          assert Filter(xs, keep)[i] == xs[0];
        } else {
          assert Filter(xs, keep)[i] == rest[i - |head|];
        }
      }
    }
  }

  lemma InsertFront<T>(x: T, xs: seq<T>, key: T -> real)
    requires SortedBy(xs, key) && xs != [] && key(x) < key(xs[0])
    ensures forall i :: 0 <= i < |xs| ==> key(x) < key(xs[i])
  {
  }

  /** Filtering commutes with inserting into a sorted sequence. */
  lemma {:induction false} FilterInsert<T>(x: T, xs: seq<T>, keep: T -> bool, key: T -> real)
    requires SortedBy(xs, key)
    ensures Filter(InsertBy(x, xs, key), keep)
         == if keep(x) then InsertBy(x, Filter(xs, keep), key) else Filter(xs, keep)
  {
    if xs == [] {
      assert InsertBy(x, xs, key) == [x] == [x] + xs;
      FilterCons(x, xs, keep);
    } else if key(x) < key(xs[0]) {
      FilterInsertFront(x, xs, keep, key);
    } else {
      var y, tail := xs[0], xs[1..];
      SortedTail(xs, key);
      FilterInsert(x, tail, keep, key);
      FilterInsertBehind(x, y, tail, keep, key);
      assert [y] + tail == xs;
    }
  }

  lemma SortedTail<T>(xs: seq<T>, key: T -> real)
    requires SortedBy(xs, key) && xs != []
    ensures SortedBy(xs[1..], key)
  {
    forall i, j | 0 <= i < j < |xs| - 1 ensures key(xs[1..][i]) <= key(xs[1..][j]) {
      assert xs[1..][i] == xs[i + 1] && xs[1..][j] == xs[j + 1];
    }
  }

  lemma FilterInsertFront<T>(x: T, xs: seq<T>, keep: T -> bool, key: T -> real)
    requires SortedBy(xs, key) && xs != [] && key(x) < key(xs[0])
    ensures Filter(InsertBy(x, xs, key), keep)
         == if keep(x) then InsertBy(x, Filter(xs, keep), key) else Filter(xs, keep)
  {
    assert InsertBy(x, xs, key) == [x] + xs;
    FilterCons(x, xs, keep);
    var kept := Filter(xs, keep);
    if keep(x) && kept != [] {
      InsertFront(x, xs, key);
      FilterKeysAbove(xs, keep, key, key(x));
      assert key(x) < key(kept[0]);
    }
  }

  lemma FilterInsertBehind<T>(x: T, y: T, tail: seq<T>, keep: T -> bool, key: T -> real)
    requires key(y) <= key(x)
    requires Filter(InsertBy(x, tail, key), keep)
          == if keep(x) then InsertBy(x, Filter(tail, keep), key) else Filter(tail, keep)
    ensures Filter(InsertBy(x, [y] + tail, key), keep)
         == if keep(x) then InsertBy(x, Filter([y] + tail, keep), key) else Filter([y] + tail, keep)
  {
    var rest := InsertBy(x, tail, key);
    InsertBehind(x, y, tail, key);
    FilterCons(y, rest, keep);
    FilterCons(y, tail, keep);
    if keep(x) && keep(y) {
      InsertBehind(x, y, Filter(tail, keep), key);
    }
    BehindCases(x, y, Filter(rest, keep), Filter(tail, keep), keep(x), keep(y),
      Filter(InsertBy(x, [y] + tail, key), keep), Filter([y] + tail, keep), key);
  }

  /** The bookkeeping of the case split, stated over already-filtered sequences. */
  lemma BehindCases<T>(x: T, y: T, fr: seq<T>, ft: seq<T>, keepX: bool, keepY: bool, lhs: seq<T>, fxs: seq<T>, key: T -> real)
    requires fr == if keepX then InsertBy(x, ft, key) else ft
    requires lhs == (if keepY then [y] else []) + fr
    requires fxs == (if keepY then [y] else []) + ft
    requires keepX && keepY ==> InsertBy(x, [y] + ft, key) == [y] + InsertBy(x, ft, key)
    ensures lhs == if keepX then InsertBy(x, fxs, key) else fxs
  {
    if !keepY {
      assert [] + fr == fr && [] + ft == ft;
    }
  }

  lemma InsertBehind<T>(x: T, y: T, ys: seq<T>, key: T -> real)
    requires key(y) <= key(x)
    ensures InsertBy(x, [y] + ys, key) == [y] + InsertBy(x, ys, key)
  {
    assert ([y] + ys)[1..] == ys;
  }

  /** Filtering before or after the stable sort gives the same sequence. */
  lemma {:induction false} FilterSortCommute<T>(xs: seq<T>, keep: T -> bool, key: T -> real)
    ensures Filter(SortBy(xs, key), keep) == SortBy(Filter(xs, keep), key)
  {
    if xs != [] {
      var init := xs[..|xs| - 1];
      var x := xs[|xs| - 1];
      assert init + [x] == xs;
      FilterSortCommute(init, keep, key);
      FilterSnoc(init, x, keep);
      FilterInsert(x, SortBy(init, key), keep, key);
      var fi := Filter(init, keep);
      if keep(x) {
        assert (fi + [x])[..|fi + [x]| - 1] == fi;
      } else {
        assert fi + [] == fi;
      }
    }
  }
}

=== FILE: text.dfy ===
/** String helpers with JavaScript semantics: prefixes, decimal rendering, `trim`. */
module Text {

  /** `s.startsWith(prefix)` */
  predicate StartsWith(s: string, prefix: string)
  {
    |prefix| <= |s| && s[..|prefix|] == prefix
  }

  /** The regular-expression class `\d` (ASCII digits only). */
  predicate IsDigit(c: char)
  {
    '0' <= c <= '9'
  }

  predicate AllDigits(s: string)
  {
    forall i :: 0 <= i < |s| ==> IsDigit(s[i])
  }

  /** `/^\d{6}$/.test(s)` */
  predicate IsSixDigits(s: string)
  {
    |s| == 6 && AllDigits(s)
  }

  function DigitChar(d: nat): (c: char)
    requires d < 10
    ensures IsDigit(c) && c as int - '0' as int == d
  {
    (d + '0' as int) as char
  }

  /** Number of decimal digits of `n` (at least one). */
  function DigitCount(n: nat): (k: nat)
    ensures k >= 1
  {
    if n < 10 then 1 else 1 + DigitCount(n / 10)
  }

  /** `n.toString()` for a non-negative integer: decimal, no leading zeros. */
  function NatToString(n: nat): (s: string)
    ensures |s| == DigitCount(n)
    ensures AllDigits(s)
    ensures s[0] != '0' || n == 0
  {
    if n < 10 then [DigitChar(n)] else NatToString(n / 10) + [DigitChar(n % 10)]
  }

  /** The value of a string of decimal digits. */
  function ParseDigits(s: string): nat
    requires AllDigits(s)
  {
    if s == [] then 0
    else 10 * ParseDigits(s[..|s| - 1]) + (s[|s| - 1] as int - '0' as int)
  }

  /** Rendering a number in decimal and reading it back gives the number. */
  lemma {:induction false} ParseNatToString(n: nat)
    ensures ParseDigits(NatToString(n)) == n
  {
    var s := NatToString(n);
    if n >= 10 {
      ParseNatToString(n / 10);
      assert s[..|s| - 1] == NatToString(n / 10);
    }
  }

  /** Every number from 100000 to 999999 is written with exactly six digits. */
  lemma SixDigitRange(n: nat)
    requires 100000 <= n <= 999999
    ensures IsSixDigits(NatToString(n))
  {
    assert DigitCount(n / 100000) == 1;
  }

  /** Distinct numbers render to distinct strings. */
  lemma NatToStringInjective(m: nat, n: nat)
    requires NatToString(m) == NatToString(n)
    ensures m == n
  {
    ParseNatToString(m);
    ParseNatToString(n);
  }

  /** The characters `String.prototype.trim` removes: ECMAScript white space and line terminators. */
  predicate IsJsSpace(c: char)
  {
    || c == '\t' || c == '\n' || c == '\U{000B}' || c == '\U{000C}' || c == '\r' || c == ' '
    || c == '\U{00A0}' || c == '\U{1680}' || ('\U{2000}' <= c <= '\U{200A}')
    || c == '\U{2028}' || c == '\U{2029}' || c == '\U{202F}' || c == '\U{205F}'
    || c == '\U{3000}' || c == '\U{FEFF}'
  }

  predicate AllSpace(s: string)
  {
    forall i :: 0 <= i < |s| ==> IsJsSpace(s[i])
  }

  /** Neither end of `s` is white space. */
  predicate Trimmed(s: string)
  {
    s == [] || (!IsJsSpace(s[0]) && !IsJsSpace(s[|s| - 1]))
  }

  /** Every character at an index in `[i, k)` is white space. */
  predicate SpacesBetween(s: string, i: nat, k: nat)
    requires i <= k <= |s|
  {
    forall j :: i <= j < k ==> IsJsSpace(s[j])
  }

  /** The first index from `i` on that is not white space (`|s|` if there is none). */
  function FirstNonSpace(s: string, i: nat): (k: nat)
    requires i <= |s|
    ensures i <= k <= |s| && SpacesBetween(s, i, k)
    ensures k < |s| ==> !IsJsSpace(s[k])
    decreases |s| - i
  {
    if i < |s| && IsJsSpace(s[i]) then FirstNonSpace(s, i + 1) else i
  }

  /** The end of `s[lo..j]` once its trailing white space is dropped. */
  function EndNonSpace(s: string, lo: nat, j: nat): (k: nat)
    requires lo <= j <= |s|
    ensures lo <= k <= j && SpacesBetween(s, k, j)
    ensures k > lo ==> !IsJsSpace(s[k - 1])
    decreases j
  {
    if j > lo && IsJsSpace(s[j - 1]) then EndNonSpace(s, lo, j - 1) else j
  }

  /** `s` is `t` with white space only before and after it. */
  ghost predicate PaddedBySpace(s: string, t: string)
  {
    exists a, b :: 0 <= a <= b <= |s| && t == s[a..b] && AllSpace(s[..a]) && AllSpace(s[b..])
  }

  /** `s.trim()`: `s` is the result padded on both sides with white space only. */
  function Trim(s: string): (t: string)
    ensures Trimmed(t)
    ensures PaddedBySpace(s, t)
    ensures t == [] <==> AllSpace(s)
  {
    var a := FirstNonSpace(s, 0);
    var b := EndNonSpace(s, a, |s|);
    TrimBounds(s, a, b);
    s[a..b]
  }

  lemma TrimBounds(s: string, a: nat, b: nat)
    requires a == FirstNonSpace(s, 0) && b == EndNonSpace(s, a, |s|)
    ensures Trimmed(s[a..b])
    ensures PaddedBySpace(s, s[a..b])
    ensures s[a..b] == [] <==> AllSpace(s)
  {
    assert AllSpace(s[..a]) by {
      forall j | 0 <= j < a ensures IsJsSpace(s[..a][j]) {
        assert s[..a][j] == s[j];
      }
    }
    assert AllSpace(s[b..]) by {
      forall j | 0 <= j < |s| - b ensures IsJsSpace(s[b..][j]) {
        assert s[b..][j] == s[b + j];
      }
    }
    if a < |s| {
      assert !IsJsSpace(s[a]);
      assert b > a;
      assert s[a..b][0] == s[a] && s[a..b][b - a - 1] == s[b - 1];
    } else {
      assert s == s[..a];
    }
  }

  /** Trimming a string that is already trimmed changes nothing, so `trim` is idempotent. */
  lemma TrimIdempotent(s: string)
    ensures Trim(Trim(s)) == Trim(s)
  {
    var t := Trim(s);
    assert [] + t + [] == t;
    TrimOfPadded([], t, []);
  }

  /** `trim` removes exactly the white-space padding around a trimmed core. */
  lemma TrimOfPadded(a: string, t: string, b: string)
    requires AllSpace(a) && AllSpace(b) && Trimmed(t)
    ensures Trim(a + t + b) == t
  {
    var s := a + t + b;
    var lo := |a|;
    var hi := |a| + |t|;
    forall j | 0 <= j < lo ensures IsJsSpace(s[j]) {
      assert s[j] == a[j];
    }
    forall j | hi <= j < |s| ensures IsJsSpace(s[j]) {
      assert s[j] == b[j - hi];
    }
    if t == [] {
      assert AllSpace(s);
    } else {
      assert s[lo] == t[0];
      FirstNonSpaceAt(s, 0, lo);
      assert s[hi - 1] == t[|t| - 1];
      EndNonSpaceAt(s, lo, |s|, hi);
      assert s[lo..hi] == t;
    }
  }

  lemma {:induction false} FirstNonSpaceAt(s: string, i: nat, k: nat)
    requires i <= k <= |s| && SpacesBetween(s, i, k)
    requires k < |s| ==> !IsJsSpace(s[k])
    ensures FirstNonSpace(s, i) == k
    decreases k - i
  {
    if i < k {
      FirstNonSpaceAt(s, i + 1, k);
    }
  }

  lemma {:induction false} EndNonSpaceAt(s: string, lo: nat, j: nat, k: nat)
    requires lo <= k <= j <= |s| && SpacesBetween(s, k, j)
    requires k > lo ==> !IsJsSpace(s[k - 1])
    ensures EndNonSpace(s, lo, j) == k
    decreases j - k
  {
    if k < j {
      EndNonSpaceAt(s, lo, j - 1, k);
    }
  }
}
